=== FILE: README.md ===
# Word-count merge tree and matrix repair, modelled in Dafny

This project models two small programs.

**Word-count merge tree (Java, `nvs-task2`).** `Task2` reads the tokens of a
text and counts each distinct token. `constructTree` then builds a binary
tree: a priority queue holds one leaf per word, and the two nodes of least
count are merged under a parent until one node is left. `TreePrinter`
renders that tree level by level as text. Each count is centred in a field
as wide as the width `main` computes, and every level keeps placeholder
slots for missing nodes, so that parents sit above their children.

**Matrix repair (JavaScript, `nvs-task1/matrix.js`).** `parseInput` reads
lines of signed integers. Each integer must be followed by a separator: a
whitespace character or a comma. `process` replaces each 0, in row-major
order and in place, by the rounded mean of its non-zero neighbours.
`printMatrix` writes the matrix back, each number followed by its own
separator.

Modules follow the programs' structure:

- `Wrappers`: `Option`.
- `Decimal`: decimal rendering and `parseInt`.
- `Nodes`: `Node.java` and the shape of merge trees.
- `Counts`: totals and entries of the word-count map.
- `MergeQueue`: the `PriorityQueue`.
- `Task2`: reading, building and the width.
- `TreePrinter`: the printer's routines, each returning the text it would print.
- `LineBreaks`, `TreeLayout` and `TreeColumns`: what the printed picture looks like as a whole.
- `Driver`: `main` without its console.
- `MatrixText`: parsing and printing.
- `MatrixRepair`: interpolation and `process`.

Modelling choices:

- Java's `null` is the `Null` tree.
- A `Long` count is a `nat`.
- A JavaScript number is `Num(int)` or `NaN`.
- Console output becomes the returned string.
- The priority queue is a sequence whose order means nothing, and `Poll` removes *some* node of least count. So nothing proved depends on how the heap breaks ties, or on the order in which a `HashMap` is walked.

Points worth noting about what the code does:

- Printing a `null` root prints the `w + 1` blanks of one empty last-level slot, not empty output.
- A count whose left-over padding is odd gets `padding / 2` blanks on each side, so its field is one column short.

## Model

| member | source | states |
|---|---|---|
| Nodes.NewNode | nvs-task2/src/ppawel/task2/Node.java:33-35 | `new Node(wordCount)` is a node with that count and no children |
| Nodes.NewParent | nvs-task2/src/ppawel/task2/Node.java:47-51 | `new Node(wordCount, left, right)` keeps exactly the given count and children |
| Nodes.NewLeaf | nvs-task2/src/ppawel/task2/Task2.java:108 | the node made for a word is a childless leaf whose only leaf entry is (word, count) |
| Nodes.CompareTo | nvs-task2/src/ppawel/task2/Node.java:57-60 | the result is -1, 0 or 1, and negative, zero or positive exactly when the first count is less than, equal to or greater than the second |
| Nodes.CompareToIsTotalPreorder | nvs-task2/src/ppawel/task2/Node.java:57-60 | `compareTo` is antisymmetric in sign and its "at most" is transitive, as the priority queue requires |
| Nodes.SetWordCount | nvs-task2/src/ppawel/task2/Node.java:66-68 | the count becomes the given one; label and children are unchanged |
| Nodes.SetLeft | nvs-task2/src/ppawel/task2/Node.java:74-76 | the left child becomes the given one; everything else is unchanged |
| Nodes.SetRight | nvs-task2/src/ppawel/task2/Node.java:82-84 | the right child becomes the given one; everything else is unchanged |
| Nodes.MergeTreeShape | nvs-task2/src/ppawel/task2/Task2.java:124-139 | a tree built by merging has every leaf labelled and one more leaf than internal nodes, and its root count is the sum of its leaf counts |
| Nodes.RootCountIsLargest | nvs-task2/src/ppawel/task2/Task2.java:128 | since a parent counts the sum of its children, no node of a merge tree counts more than the root |
| Nodes.JoinIsMergeTree | nvs-task2/src/ppawel/task2/Task2.java:128 | the parent of two merge trees, the lesser on the left, is a merge tree whose leaves are the left tree's and then the right tree's |
| Nodes.SingleLeafTree | nvs-task2/src/ppawel/task2/Task2.java:133-138 | a merge tree with a single leaf entry is that leaf itself |
| Counts.TotalIncrement | nvs-task2/src/ppawel/task2/Task2.java:93 | counting one more occurrence of a word, new or not, raises the map's total by exactly one |
| Counts.SumOfEntries | nvs-task2/src/ppawel/task2/Task2.java:108 | any sequence listing each (word, count) entry of the map once adds up to the map's total |
| Decimal.DecimalStringBounds | nvs-task2/src/ppawel/task2/Task2.java:48 | `String.valueOf(n).length()` is the d with 10^(d-1) <= n < 10^d, and the rendering has no leading zero |
| Decimal.DigitsValueOfDecimal | nvs-task2/src/ppawel/task2/TreePrinter.java:106 | reading the printed digits of a count back gives the count |
| Decimal.DecimalLengthMonotone | nvs-task2/src/ppawel/task2/Task2.java:45-48 | a larger count never has fewer digits, so the largest count gives the widest label |
| Decimal.ParseIntOfIntString | nvs-task1/matrix.js:40 | `parseInt` of JavaScript's rendering of an integer, with its minus sign, gives the integer back |
| MergeQueue.Poll | nvs-task2/src/ppawel/task2/Task2.java:118-122 | `poll` gives `null` on an empty queue; otherwise it gives a node of least count and leaves the other nodes, with all their leaves |
| MergeQueue.Offer | nvs-task2/src/ppawel/task2/Task2.java:132 | offering a node adds exactly that node's leaves to those pending in the queue |
| Task2.ReadWordCounts | nvs-task2/src/ppawel/task2/Task2.java:88-96 | a word is in the map exactly when it is a token, and it maps to the number of its occurrences |
| Task2.TotalIsTokenCount | nvs-task2/src/ppawel/task2/Task2.java:88-96 | the counts add up to the number of tokens |
| Task2.BuiltFromProperties | nvs-task2/src/ppawel/task2/Task2.java:103-141 | a root whose leaves are the map's entries is null exactly for an empty map; otherwise its count is the total, it has one leaf per word and one internal node fewer, each word's entry appears once, and a single word gives its own leaf |
| Task2.OfferLeaves | nvs-task2/src/ppawel/task2/Task2.java:108 | the queue starts with exactly one leaf per entry of the map: as many nodes as entries, every one a childless leaf, and together their leaves are the map's entries |
| Task2.Round | nvs-task2/src/ppawel/task2/Task2.java:111-139 | one pass of the loop ends with a root and an empty queue exactly when the queue held one node, and that root is the node itself; otherwise it takes out two nodes of least count (a least node, then a least node of the rest), offers their parent in their place (`MergesTwoLeast`), and shrinks the queue by one; no leaf is lost or duplicated |
| Task2.SecondPoll | nvs-task2/src/ppawel/task2/Task2.java:122-139 | after the least node is taken: when the queue is now empty, the first node becomes the root and nothing is left; otherwise no root is set, a least node of the rest is taken out and the parent of the two, with their counts summed, is offered in its place (`MergesLeast`) |
| Task2.OfferParent | nvs-task2/src/ppawel/task2/Task2.java:124-132 | the queue gains exactly one node at its end, the parent whose count is the two polled counts summed and whose children are the first node on the left and the second on the right; it is a merge tree |
| Task2.MergeDown | nvs-task2/src/ppawel/task2/Task2.java:111-140 | the loop ends with a root (or `null` from an empty queue) that is a merge tree holding exactly the leaves that were queued |
| Task2.ConstructTree | nvs-task2/src/ppawel/task2/Task2.java:103-141 | the root is a merge tree whose leaves are exactly the map's entries; it is null exactly for an empty map; its count is the total; there are n leaves and n-1 internal nodes; one word gives its leaf as the root |
| Task2.MaxWordCount | nvs-task2/src/ppawel/task2/Task2.java:45 | the result is one of the counts and no count exceeds it, or it is 0 for an empty map |
| Task2.MaxCountWidth | nvs-task2/src/ppawel/task2/Task2.java:45-48 | the width is at least 1 and exactly 1 (the digits of 0) for an empty map; every word count fits in it, and some word count fills it |
| Task2.MaxCountWidthMissesRoot | nvs-task2/src/ppawel/task2/Task2.java:45-48 | with ten or more distinct tokens this width is 1, while the root counts every token and has more digits (three or more from a hundred tokens) |
| Task2.DistinctTokensCountOnce | nvs-task2/src/ppawel/task2/Task2.java:93 | tokens that never repeat are each counted 1 |
| Task2.TreeWidth | nvs-task2/src/ppawel/task2/Task2.java:45-48 | the corrected width is at least 1 and every count in the tree, sums included, fits in it |
| TreePrinter.Print | nvs-task2/src/ppawel/task2/TreePrinter.java:27-31 | `print`: the width made odd, the height measured, the levels printed from the root's; the whole picture is described by `TreeLayout.PrintShape` (H-1 broken lines, then the deepest level; `w + 1` blanks for `null`) |
| TreePrinter.NormalizeWidth | nvs-task2/src/ppawel/task2/TreePrinter.java:28 | the field width is odd and is the given width or one more |
| TreePrinter.Height | nvs-task2/src/ppawel/task2/TreePrinter.java:94-101 | the height is 0 exactly for `null` |
| TreePrinter.Repeat | nvs-task2/src/ppawel/task2/TreePrinter.java:128-134 | `repeat` gives exactly `count` characters, each the repeated one |
| TreePrinter.PrintNodeValue | nvs-task2/src/ppawel/task2/TreePrinter.java:103-108 | the printed value is never shorter than the count's digits, and no wider than the field when the digits fit; centring is stated by `TreePrinter.PrintNodeValueCentred` and `TreeColumns.CellMiddle` |
| TreePrinter.PrintableMeansNoNegativeHalf | nvs-task2/src/ppawel/task2/TreePrinter.java:103-108 | a count can be printed (no negative length reaches `repeat`) exactly when it is at most one digit wider than the field |
| TreePrinter.PrintNodeValueCentred | nvs-task2/src/ppawel/task2/TreePrinter.java:103-108 | the count sits between two equal runs of blanks; it fills the field exactly when the left-over is even and is one short when odd; a count one digit too wide is printed bare |
| TreePrinter.CellLength | nvs-task2/src/ppawel/task2/TreePrinter.java:67-72 | a `null` slot, or a node whose left-over is even, takes exactly the field width |
| TreePrinter.LevelCellsLayout | nvs-task2/src/ppawel/task2/TreePrinter.java:58-73 | a row of slots holds only blanks and digits |
| TreePrinter.LevelCellsLength | nvs-task2/src/ppawel/task2/TreePrinter.java:58-73 | with exact fields, each slot together with its separator takes `w + separator` columns |
| TreePrinter.SubtreeWidthIsPower | nvs-task2/src/ppawel/task2/TreePrinter.java:49-53 | the span of one slot on level L of a tree of height H is (w+1)·2^(H-L) |
| TreePrinter.LeadingPad | nvs-task2/src/ppawel/task2/TreePrinter.java:54 | the leading pad is non-negative and, with a field and a blank, fits in half a span |
| TreePrinter.PrintLevel | nvs-task2/src/ppawel/task2/TreePrinter.java:48-74 | `printLevel` on an interior level: the leading pad, then every slot's field followed by the span less `w` blanks; stated by `TreePrinter.PrintLevelPad`, `TreePrinter.PrintLevelLength`, `LineBreaks.PrintLevelHasNoBreak` and `TreeColumns.LevelCellsColumns` |
| TreePrinter.PrintLevelPad | nvs-task2/src/ppawel/task2/TreePrinter.java:52-55 | an interior line opens with its leading pad, all blanks |
| TreePrinter.PrintLevelLength | nvs-task2/src/ppawel/task2/TreePrinter.java:48-74 | with exact fields, an interior line is the leading pad plus one full span per slot, the last slot's separator included |
| TreePrinter.PrintLastLevel | nvs-task2/src/ppawel/task2/TreePrinter.java:76-85 | every slot takes at least one column; the layout is stated by `TreePrinter.PrintLastLevelLayout`, `TreePrinter.LastLevelLength` and `TreeColumns.LastLevelIsCells` |
| TreePrinter.PrintLastLevelLayout | nvs-task2/src/ppawel/task2/TreePrinter.java:76-85 | the deepest line holds only blanks and digits, and so no line break |
| TreePrinter.LastLevelLength | nvs-task2/src/ppawel/task2/TreePrinter.java:76-85 | with exact fields, each slot of the deepest line takes `w + 1` columns |
| TreePrinter.NextLevel | nvs-task2/src/ppawel/task2/TreePrinter.java:110-122 | the next level has twice as many slots |
| TreePrinter.NextLevelPairs | nvs-task2/src/ppawel/task2/TreePrinter.java:110-122 | slots 2i and 2i+1 of the next level hold the left and right child of slot i, or two `null`s when slot i is `null` |
| TreePrinter.IsLevelEmpty | nvs-task2/src/ppawel/task2/TreePrinter.java:124-126 | `isLevelEmpty`; `TreePrinter.LevelEmptyAllNull` states that it holds exactly when every slot is `null` |
| TreePrinter.PrintNodes | nvs-task2/src/ppawel/task2/TreePrinter.java:33-46 | `printNodes`; `TreeLayout.PrintNodesFromLevel` states that from a level reaching down to the height it prints every interior line and then the deepest level |
| TreePrinter.LevelEmptyAllNull | nvs-task2/src/ppawel/task2/TreePrinter.java:124-126 | a level is empty exactly when every slot is `null` |
| LineBreaks.PrintLevelHasNoBreak | nvs-task2/src/ppawel/task2/TreePrinter.java:48-74 | `printLevel` itself prints no line break |
| TreeLayout.LevelEmptyIffNoHeight | nvs-task2/src/ppawel/task2/TreePrinter.java:124-126 | a level is empty exactly when none of its slots has any height |
| TreeLayout.NextLevelHeight | nvs-task2/src/ppawel/task2/TreePrinter.java:110-122 | going one level down lowers the greatest height among the slots by one, down to 0 |
| TreeLayout.Level | nvs-task2/src/ppawel/task2/TreePrinter.java:30-41 | level k holds 2^(k-1) slots, all printable when the tree is |
| TreeLayout.LevelEmptyBeyondHeight | nvs-task2/src/ppawel/task2/TreePrinter.java:40 | level k is empty exactly when k is one past the height |
| TreeLayout.HeightCountsLevels | nvs-task2/src/ppawel/task2/TreePrinter.java:94-101 | the height is the number of levels holding a node: each level down to it holds one, and the next is empty |
| TreeLayout.InteriorLinesBreaks | nvs-task2/src/ppawel/task2/TreePrinter.java:36-38 | the interior lines from level L of a tree of height H carry exactly H-L line breaks |
| TreeLayout.DeepestLineIsLastLevel | nvs-task2/src/ppawel/task2/TreePrinter.java:43-45 | the line without a break shows the level numbered by the height |
| TreeLayout.PrintNodesFromLevel | nvs-task2/src/ppawel/task2/TreePrinter.java:33-46 | from a level reaching down to the height, `printNodes` never stops early: it prints every interior line and then the deepest level |
| TreeLayout.TreeLines | nvs-task2/src/ppawel/task2/TreePrinter.java:27-46 | a non-null tree prints as its interior lines followed by the deepest level |
| TreeLayout.PrintShape | nvs-task2/src/ppawel/task2/TreePrinter.java:27-31 | `print` of a tree of height H > 0 gives H-1 lines ended by a line break and then the deepest level; a `null` root gives `w + 1` blanks |
| TreeColumns.JoinColumns | nvs-task2/src/ppawel/task2/TreePrinter.java:58-73 | in a row of `w`-wide fields, field i occupies the `w` columns after i spans of `w + separator` |
| TreeColumns.LevelCellsColumns | nvs-task2/src/ppawel/task2/TreePrinter.java:58-73 | with exact fields, slot i's field occupies the `w` columns starting at i·(w + separator) |
| TreeColumns.LastLevelIsCells | nvs-task2/src/ppawel/task2/TreePrinter.java:76-85 | the deepest line is the same row of fields with a one-blank separator |
| TreeColumns.CellMiddle | nvs-task2/src/ppawel/task2/TreePrinter.java:103-108 | an exact field of odd width has the count's middle digit in its middle column, and a `null` field has a blank there |
| TreeColumns.CentresAlign | nvs-task2/src/ppawel/task2/TreePrinter.java:49-54 | with an odd field width, each parent's middle column is exactly halfway between its two children's, on every level |
| Driver.DigitsFitPrintable | nvs-task2/src/ppawel/task2/TreePrinter.java:103-108 | counts that fit a width can be printed at that width made odd |
| Driver.MainWidthBreaksPrinter | nvs-task2/src/ppawel/task2/Task2.java:45-48 | with a hundred or more distinct tokens, `main`'s width normalises to 1 and the root cannot be printed in it |
| Driver.EmptyPicture | nvs-task2/src/ppawel/task2/Task2.java:45-48 | an empty text builds no tree and prints as two blanks |
| Driver.Run | nvs-task2/src/ppawel/task2/Task2.java:33-49 | with the corrected width: counts as read, a tree built from them, every count printable, and a picture with one line per level |
| MatrixText.ParseInput | nvs-task1/matrix.js:24-49 | `parseInput`; stated by `MatrixText.ParseInputFirstLine` (one row per non-empty line, in order), `MatrixText.TrailingNewlineIgnored`, `MatrixText.ScanItems`, `MatrixText.ScanNeedsSeparator` and the round trip `MatrixText.ParsePrinted` |
| MatrixText.PrintMatrix | nvs-task1/matrix.js:115-124 | the text of a non-empty matrix ends with a line break, the one after its last row; its inverse is `MatrixText.ParsePrinted` |
| MatrixText.SplitLinesAtBreak | nvs-task1/matrix.js:28 | a line with no break is split off whole at the first line break |
| MatrixText.MatchAt | nvs-task1/matrix.js:36 | a match uses at least a digit and its separator, and never more than the text |
| MatrixText.ScanItems | nvs-task1/matrix.js:36-43 | every parsed item holds a number, never `NaN`, and a separator the pattern accepts |
| MatrixText.ScanNeedsSeparator | nvs-task1/matrix.js:34-36 | text with no separator yields no item |
| MatrixText.TrailingNumberDropped | nvs-task1/matrix.js:34-36 | in `12,34` the last number has no separator after it and is not read |
| MatrixText.ParseRows | nvs-task1/matrix.js:35-45 | one row per line given |
| MatrixText.TrailingNewlineIgnored | nvs-task1/matrix.js:28-32 | a newline at the end of the text adds no row |
| MatrixText.ParseInputFirstLine | nvs-task1/matrix.js:28-46 | a non-empty first line becomes the first row and the rest of the text the other rows |
| MatrixText.MatchPrinted | nvs-task1/matrix.js:36-42 | a printed number and its separator are matched in full and read back as that item |
| MatrixText.ParsePrintedRow | nvs-task1/matrix.js:117-120 | scanning a printed row gives the row back |
| MatrixText.PrintedRowHasNoBreak | nvs-task1/matrix.js:117-120 | a printed row contains no line break when no separator is one |
| MatrixText.EmptyRowLost | nvs-task1/matrix.js:28-45 | a non-empty line with no item gives an empty row, which prints as a bare line break and reads back as no row |
| MatrixText.ParsePrinted | nvs-task1/matrix.js:115-124 | `parseInput(printMatrix(m))` gives back `m` for every matrix whose rows are non-empty, whose values are numbers and whose separators are not line feeds |
| MatrixRepair.RoundHalfUpNearest | nvs-task1/matrix.js:88 | `Math.round(sum / count)` is the integer nearest to the quotient, ties going up |
| MatrixRepair.GoodSumNaN | nvs-task1/matrix.js:81-87 | the sum is `NaN` exactly when some neighbour taking part is `NaN` |
| MatrixRepair.MeanIsNaN | nvs-task1/matrix.js:79-88 | the result is `NaN` exactly when no neighbour exists with a non-zero value or one that does is `NaN` |
| MatrixRepair.GoodSumWithin | nvs-task1/matrix.js:81-87 | with c good neighbours between lo and hi, the sum is between c·lo and c·hi |
| MatrixRepair.RoundWithin | nvs-task1/matrix.js:88 | rounding a mean of values between lo and hi stays between them |
| MatrixRepair.MeanWithin | nvs-task1/matrix.js:79-88 | a mean of good neighbours between lo and hi is a number between lo and hi |
| MatrixRepair.Interpolate | nvs-task1/matrix.js:61-89 | an entry with no neighbour that exists and is not 0 gets `NaN` (`0 / 0`); the mean is described by `MatrixRepair.MeanIsNaN`, `MatrixRepair.InterpolateWithin` and `MatrixRepair.RoundHalfUpNearest` |
| MatrixRepair.InterpolateWithin | nvs-task1/matrix.js:61-89 | an entry whose good neighbours are numbers between lo and hi, at least one of them, is interpolated to a number between lo and hi |
| MatrixRepair.LoneZeroBecomesNaN | nvs-task1/matrix.js:61-106 | a matrix holding a single 0 comes out of `process` as a single `NaN` with the same separator, because the entry has no neighbour and `interpolate` divides 0 by 0 |
| MatrixRepair.Visit | nvs-task1/matrix.js:100-103 | one step of the loop keeps the matrix's shape |
| MatrixRepair.VisitElsewhere | nvs-task1/matrix.js:101-102 | one step changes no other cell |
| MatrixRepair.Processed | nvs-task1/matrix.js:97-106 | the matrix `process` leaves has the shape of the one it was given; cell by cell it is described by `MatrixRepair.ProcessedFrame`, `MatrixRepair.ProcessedZero` and `MatrixRepair.ProcessedIsRepaired` |
| MatrixRepair.SweepShape | nvs-task1/matrix.js:97-106 | the loops keep the number of rows and each row's length |
| MatrixRepair.SweepFrame | nvs-task1/matrix.js:97-106 | the rest of the loops never changes a separator, a non-zero entry or a cell already passed |
| MatrixRepair.LeftTopFinal | nvs-task1/matrix.js:100-103 | when a zero is visited its left and top neighbours already hold their final values |
| MatrixRepair.SweepZero | nvs-task1/matrix.js:97-106 | a zero not yet passed gets the mean of final left and top neighbours and original right and bottom ones |
| MatrixRepair.ProcessedFrame | nvs-task1/matrix.js:97-106 | `process` keeps the shape, every separator and every non-zero entry |
| MatrixRepair.ProcessedZero | nvs-task1/matrix.js:97-106 | `process` gives each zero the mean of its neighbours as they stand on its turn |
| MatrixRepair.ZeroCanSurvive | nvs-task1/matrix.js:83-88 | neighbours 1 and -1 average to 0, so a repaired entry can still be 0 |
| MatrixRepair.NaNSpreads | nvs-task1/matrix.js:83-102 | an isolated zero becomes `NaN`, and the next zero counts that `NaN` as a good neighbour and becomes `NaN` too |
| MatrixRepair.RepairedUnique | nvs-task1/matrix.js:97-106 | the cell-by-cell description of `process` has at most one solution |
| MatrixRepair.ProcessedIsRepaired | nvs-task1/matrix.js:97-106 | a matrix satisfies the cell-by-cell description exactly when it is what `process` leaves |
| MatrixRepair.Process | nvs-task1/matrix.js:97-106 | the in-place, row-major loop leaves the matrix the cell-by-cell description fixes |

## Left out

- Console and file input/output are not modelled: `main`'s argument check, `System.exit`, `Scanner`, `System.out`, and printing the word-count map. The scanner is replaced by its sequence of tokens, and each printing routine returns its text.
- `System.out.println` ends each interior line of the tree with the platform's line separator; the model writes a single `\n`.
- Nodes.SetWordCount: Java's setters mutate a node that other references share; the model's setters return an updated value instead (`Nodes.SetLeft` and `Nodes.SetRight` likewise). No routine of the core calls them.
- The web page is not modelled: `readTextFromFile`, `onFileSelected` and the DOM (nvs-task1/matrix.js:126-158). The matrix functions take and return values.
- The model's integers are unbounded and its arithmetic exact. The sources compute in `double`: `Math.pow` and the `/ 2.0` of the leading pad in `TreePrinter.java`, and `parseInt`, the running `sum +=` and `sum / count` in `matrix.js`. A `double` holds every integer exactly only up to 2^53 in magnitude. So the model agrees with the source only while the spans of the tree, the parsed values and the sums of neighbours stay below 2^53; beyond that the source rounds and the model does not.
- `Math.round` on a quotient is modelled as rounding half up on exact rationals. JavaScript's rendering of numbers too large to print in plain decimal is not modelled.
- `Long` overflow of counts and sums, and the `(int)` cast in `repeat`, are not modelled: counts are unbounded.
- The tie-break of `PriorityQueue` and the iteration order of `HashMap` are not modelled. `Poll` removes some node of least count, and every property holds for any choice.
- Task2.ReadWordCounts: the model takes the scanner's tokens as given, so the rule that splits text into tokens on whitespace is not modelled.
- `Task2.java` calls `new Node(count, word)`, but `Node.java` has no such constructor. The model gives `Node` an optional word label (`Nodes.NewLeaf`) that internal nodes do not carry.
- `-0` is modelled as `0`. It compares equal under `===` and `!==` and prints as `0`, so nothing observable changes.
- MatrixText.ParsePrinted: a non-empty line holding no item becomes an empty row, and printing that row gives a bare line break, which `parseInput` skips; so the round trip is stated only for matrices whose rows are non-empty (`MatrixText.EmptyRowLost` exhibits the loss).
- The item pattern's `\s` accepts every JavaScript whitespace character as a separator, line feed included. The model follows that, and the round trip is stated for matrices whose separators are not line feeds.
- MatrixRepair.Neighbours: it always reads four neighbours, while the source skips the top and bottom reads when that row is missing. A missing row reads as `undefined`, which the averaging skips anyway, so the mean is the same.
- TreePrinter.PrintNodeValue requires the count to be at most one digit wider than the field. At two or more digits wider, `repeat` gets a negative count and `new StringBuilder` throws. That throw is not modelled, and `TreePrinter.PrintableMeansNoNegativeHalf` states exactly where it starts.
- The placement of fields is stated per row of fields (`TreeColumns.LevelCellsColumns`), per slot (`TreeColumns.SlotStart`) and as centre alignment (`TreeColumns.CentresAlign`). It is not stated as a column index into a whole printed line.

## Findings

| source | as written | input that shows it | evidently intended | confidence | as-written member | corrected member |
|---|---|---|---|---|---|---|
| nvs-task2/src/ppawel/task2/Task2.java:45-48 | the label width passed to the printer is the digit count of the largest *word* count, but internal nodes carry sums of counts, which can have more digits | a text of 100 distinct tokens: every word counts 1, so the width is 1, but the root counts 100; `printNodeValue` computes padding 1 - 3 = -2, halves it to -1, and `new StringBuilder(-1)` throws | the width covers every count the tree holds, that is, the digits of the root's count | not executed | Driver.MainWidthBreaksPrinter | Task2.TreeWidth |

`Task2.MaxCountWidthMissesRoot` also shows the milder case. From 10 distinct tokens the root's count is already wider than its field, so it prints off-centre. `Driver.Run` uses `Task2.TreeWidth` and proves that every count in the tree then fits its field.

=== FILE: counts.dfy ===
/**
 * The word-count mapping `Map<String, Long>` seen as a whole: the total of
 * its counts, and the multiset of its (word, count) entries, which is what
 * the leaves of the merge tree must reproduce.
 */
module Counts {

  /** One (word, count) pair of the mapping, as carried by a leaf. */
  type Entry = (string, nat)

  /** Sum of the counts of a sequence of entries. */
  function SumOf(es: seq<Entry>): nat
  {
    if es == [] then 0 else SumOf(es[..|es| - 1]) + es[|es| - 1].1
  }

  lemma {:induction false} SumOfAppend(a: seq<Entry>, b: seq<Entry>)
    ensures SumOf(a + b) == SumOf(a) + SumOf(b)
    decreases |b|
  {
    if b != [] {
      assert (a + b)[..|a + b| - 1] == a + b[..|b| - 1];
      SumOfAppend(a, b[..|b| - 1]);
    } else {
      assert a + b == a;
    }
  }

  /** The total of all counts of a mapping, in no particular order. */
  ghost function Total(m: map<string, nat>): nat
    decreases |m|
  {
    if m == map[] then 0
    else
      var k :| k in m;
      m[k] + Total(m - {k})
  }

  lemma MapRemoveSize(m: map<string, nat>, k: string)
    requires k in m
    ensures |m - {k}| == |m| - 1
  {
    assert (m - {k}).Keys == m.Keys - {k};
  }

  /** The total does not depend on which entry is taken out first. */
  lemma {:induction false} TotalRemove(m: map<string, nat>, k: string)
    requires k in m
    ensures Total(m) == m[k] + Total(m - {k})
    decreases |m|
  {
    var j :| j in m && Total(m) == m[j] + Total(m - {j});
    if j != k {
      MapRemoveSize(m, j);
      MapRemoveSize(m, k);
      TotalRemove(m - {j}, k);
      TotalRemove(m - {k}, j);
      assert m - {j} - {k} == m - {k} - {j};
    }
  }

  /** Counting one more occurrence of a word adds one to the total. */
  lemma TotalIncrement(m: map<string, nat>, k: string)
    ensures Total(m[k := if k in m then m[k] + 1 else 1]) == Total(m) + 1
  {
    var after := m[k := if k in m then m[k] + 1 else 1];
    TotalRemove(after, k);
    assert after - {k} == m - {k};
    if k in m {
      TotalRemove(m, k);
    } else {
      assert m - {k} == m;
    }
  }

  /** The entries of a mapping: one (word, count) pair per word. */
  function Entries(m: map<string, nat>): multiset<Entry>
  {
    multiset(set k | k in m :: (k, m[k]))
  }

  /** An entry belongs to the mapping exactly when its word maps to its count, and occurs once. */
  lemma EntriesMembership(m: map<string, nat>, e: Entry)
    ensures e in Entries(m) <==> e.0 in m && m[e.0] == e.1
    ensures Entries(m)[e] <= 1
  {
  }

  lemma EntriesRemove(m: map<string, nat>, k: string)
    requires k in m
    ensures Entries(m) == Entries(m - {k}) + multiset{(k, m[k])}
  {
    var s := set j | j in m :: (j, m[j]);
    var s' := set j | j in m - {k} :: (j, (m - {k})[j]);
    forall e | e in s
      ensures e in s' + {(k, m[k])}
    {
      var j :| j in m && e == (j, m[j]);
      if j != k {
        assert e == (j, (m - {k})[j]);
      }
    }
    assert s == s' + {(k, m[k])};
    assert (k, m[k]) !in s';
  }

  lemma {:induction false} EntriesSize(m: map<string, nat>)
    ensures |Entries(m)| == |m|
    decreases |m|
  {
    if m != map[] {
      var k :| k in m;
      EntriesRemove(m, k);
      MapRemoveSize(m, k);
      EntriesSize(m - {k});
    }
  }

  /** Any sequence listing the entries of a mapping adds up to the mapping's total. */
  lemma {:induction false} SumOfEntries(es: seq<Entry>, m: map<string, nat>)
    requires multiset(es) == Entries(m)
    ensures SumOf(es) == Total(m)
    decreases |es|
  {
    if es == [] {
      EntriesSize(m);
    } else {
      var e := es[|es| - 1];
      var front := es[..|es| - 1];
      assert es == front + [e];
      assert e in multiset(es);
      EntriesMembership(m, e);
      EntriesRemove(m, e.0);
      assert multiset(front) == multiset(es) - multiset{e};
      assert Entries(m - {e.0}) == Entries(m) - multiset{e};
      SumOfEntries(front, m - {e.0});
      TotalRemove(m, e.0);
    }
  }
}

=== FILE: decimal.dfy ===
/**
 * Decimal text of integers: the rendering Java's `String.valueOf(long)` and
 * JavaScript's number-to-string give an integer, and the value `parseInt`
 * reads back from a `-?\d+` match.
 */
module Decimal {

  predicate IsDigit(c: char) {
    '0' <= c <= '9'
  }

  predicate AllDigits(s: string) {
    forall i :: 0 <= i < |s| ==> IsDigit(s[i])
  }

  function DigitChar(d: nat): (c: char)
    requires d < 10
    ensures IsDigit(c)
  {
    (('0' as int) + d) as char
  }

  function DigitValue(c: char): (d: nat)
    requires IsDigit(c)
    ensures d < 10
    ensures DigitChar(d) == c
  {
    (c as int) - ('0' as int)
  }

  function Pow10(k: nat): (p: nat)
    ensures p >= 1
  {
    if k == 0 then 1 else 10 * Pow10(k - 1)
  }

  /**
   * The decimal rendering of a non-negative integer: no sign, no grouping,
   * no leading zero; its length d is the one with 10^(d-1) <= n < 10^d.
   */
  function DecimalString(n: nat): (s: string)
    ensures |s| >= 1 && AllDigits(s)
    decreases n
  {
    if n < 10 then [DigitChar(n)] else DecimalString(n / 10) + [DigitChar(n % 10)]
  }

  /** The rendering has no leading zero, and its length d is the one with 10^(d-1) <= n < 10^d. */
  lemma {:induction false} DecimalStringBounds(n: nat)
    ensures var s := DecimalString(n);
      && (s[0] == '0' ==> n == 0 && |s| == 1)
      && n < Pow10(|s|)
      && (|s| > 1 ==> Pow10(|s| - 1) <= n)
    decreases n
  {
    if n >= 10 {
      DecimalStringBounds(n / 10);
    }
  }

  /** The value of a run of decimal digits, most significant first. */
  function DigitsValue(s: string): nat
    requires AllDigits(s)
  {
    if s == [] then 0 else 10 * DigitsValue(s[..|s| - 1]) + DigitValue(s[|s| - 1])
  }

  /** Reading back a rendered number gives the number. */
  lemma {:induction false} DigitsValueOfDecimal(n: nat)
    ensures DigitsValue(DecimalString(n)) == n
    decreases n
  {
    var s := DecimalString(n);
    if n >= 10 {
      DigitsValueOfDecimal(n / 10);
      assert s[..|s| - 1] == DecimalString(n / 10);
    }
  }

  /** A larger number never has fewer digits. */
  lemma DecimalLengthMonotone(a: nat, b: nat)
    requires a <= b
    ensures |DecimalString(a)| <= |DecimalString(b)|
  {
    DecimalStringBounds(a);
    DecimalStringBounds(b);
  }

  /** The JavaScript rendering of an integer-valued number: a '-' before a negative one. */
  function IntString(i: int): (s: string)
    ensures |s| >= 1
    ensures i < 0 <==> s[0] == '-'
    ensures AllDigits(if i < 0 then s[1..] else s)
  {
    if i < 0 then "-" + DecimalString(-i) else DecimalString(i)
  }

  /** `parseInt` applied to a `-?\d+` match. */
  function ParseInt(s: string): int
    requires |s| >= 1
    requires AllDigits(if s[0] == '-' then s[1..] else s)
  {
    if s[0] == '-' then 0 - DigitsValue(s[1..]) else DigitsValue(s)
  }

  lemma ParseIntOfIntString(i: int)
    ensures ParseInt(IntString(i)) == i
  {
    var s := IntString(i);
    if i < 0 {
      assert s[1..] == DecimalString(-i);
      DigitsValueOfDecimal(-i);
    } else {
      DigitsValueOfDecimal(i);
    }
  }
}

=== FILE: driver.dfy ===
/**
 * `Task2.main` without its console: the counts are read, the tree is
 * built, and the tree is printed with a label width.
 */
module Driver {
  import opened Decimal
  import opened Nodes
  import opened Task2
  import opened TreePrinter
  import opened TreeLayout
  import opened LineBreaks

  lemma {:induction false} DigitsFitPrintable(t: Tree, w: nat)
    requires CountsAtMostDigits(t, w)
    ensures TreePrintable(t, NormalizeWidth(w))
  {
    if t.Node? {
      DigitsFitPrintable(t.left, w);
      DigitsFitPrintable(t.right, w);
    }
  }

  /**
   * With the width `main` computes, a hundred or more distinct tokens
   * build a root whose count is two digits wider than the one-column
   * field, so `printNodeValue` hands `repeat` a negative count and the
   * printer throws.
   */
  lemma MainWidthBreaksPrinter(tokens: seq<string>, root: Tree)
    requires |tokens| >= 100 && Distinct(tokens)
    requires BuiltFrom(root, ReadWordCounts(tokens))
    ensures NormalizeWidth(MaxCountWidth(ReadWordCounts(tokens))) == 1
    ensures root.Node? && !Printable(root.wordCount, 1)
    ensures !TreePrintable(root, NormalizeWidth(MaxCountWidth(ReadWordCounts(tokens))))
  {
    MaxCountWidthMissesRoot(tokens, root);
  }

  /** An empty text builds no tree, which prints as the two blanks of one empty slot. */
  lemma EmptyPicture()
    ensures TreeWidth(Null) == 1
    ensures TreePrintable(Null, NormalizeWidth(1)) && Print(Null, 1) == "  "
  {
    assert DecimalString(0) == "0";
    PrintShape(Null, 1);
    assert Repeat(' ', 2) == "  ";
  }

  /**
   * `main` with the width taken from the root's count, the largest in the
   * tree: the tree is built from the counts, every count fits its field,
   * and the picture has one line per level.
   */
  method Run(tokens: seq<string>) returns (counts: map<string, nat>, root: Tree, picture: string)
    ensures forall w :: w in counts <==> w in tokens
    ensures forall w :: w in counts ==> counts[w] == multiset(tokens)[w]
    ensures BuiltFrom(root, counts)
    ensures CountsAtMostDigits(root, TreeWidth(root))
    ensures TreePrintable(root, NormalizeWidth(TreeWidth(root))) && picture == Print(root, TreeWidth(root))
    ensures tokens == [] ==> picture == "  "
    ensures root != Null ==> Breaks(picture) == Height(root) - 1
  {
    counts := ReadWordCounts(tokens);
    root := ConstructTree(counts);
    var width := TreeWidth(root);
    DigitsFitPrintable(root, width);
    picture := Print(root, width);
    PrintShape(root, width);
    if tokens == [] {
      assert counts == map[];
      EmptyPicture();
    }
  }
}

=== FILE: line_breaks.dfy ===
/**
 * Counting line breaks in text: text of blanks and digits holds none,
 * joining two pieces adds up theirs, and so an interior line of the printed
 * tree holds none of its own.
 */
module LineBreaks {
  import opened Nodes
  import opened TreePrinter

  /** The number of line breaks in `s`. */
  function Breaks(s: string): nat {
    if s == [] then 0 else Breaks(s[..|s| - 1]) + (if s[|s| - 1] == '\n' then 1 else 0)
  }

  lemma {:induction false} BreaksAppend(a: string, b: string)
    ensures Breaks(a + b) == Breaks(a) + Breaks(b)
    decreases |b|
  {
    if b == [] {
      assert a + b == a;
    } else {
      assert (a + b)[..|a + b| - 1] == a + b[..|b| - 1];
      BreaksAppend(a, b[..|b| - 1]);
    }
  }

  /** Text without the line-break character counts no line break. */
  lemma {:induction false} NoBreakCharCountsNone(s: string)
    requires '\n' !in s
    ensures Breaks(s) == 0
  {
    if s != [] {
      assert s == s[..|s| - 1] + [s[|s| - 1]];
      NoBreakCharCountsNone(s[..|s| - 1]);
    }
  }

  /** Text of blanks and digits holds no line-break character. */
  lemma LayoutHasNoBreak(s: string)
    requires IsLayout(s)
    ensures '\n' !in s
  {
    forall i | 0 <= i < |s|
      ensures s[i] != '\n'
    {
      assert IsLayoutChar(s[i]);
    }
  }

  /** A line with no line break of its own, set above `n` line breaks, gives `n + 1`. */
  lemma LineAbove(line: string, rest: string, joined: string, n: nat)
    requires joined == line + "\n" + rest
    requires '\n' !in line && Breaks(rest) == n
    ensures Breaks(joined) == n + 1
  {
    NoBreakCharCountsNone(line);
    BreaksAppend(line + "\n", rest);
    BreaksAppend(line, "\n");
    assert ("\n")[..0] == [];
  }

  /** Blanks followed by a row of fields hold no line break. */
  lemma PaddedCellsHaveNoBreak(slots: seq<Tree>, w: nat, pad: nat, separator: nat)
    requires SlotsPrintable(slots, w)
    ensures '\n' !in Repeat(' ', pad) + LevelCells(slots, w, separator)
  {
    LevelCellsLayout(slots, w, separator);
    LayoutHasNoBreak(LevelCells(slots, w, separator));
  }

  /** An interior line, its leading pad and its fields, holds no line break. */
  lemma PrintLevelHasNoBreak(slots: seq<Tree>, level: nat, height: nat, w: nat)
    requires 1 <= level < height && SlotsPrintable(slots, w)
    ensures '\n' !in PrintLevel(slots, level, height, w)
  {
    PaddedCellsHaveNoBreak(slots, w, LeadingPad(height, level, w), SubtreeWidth(height, level, w) - w);
  }
}

=== FILE: matrix_repair.dfy ===
/**
 * The repair step of the matrix page: every entry equal to 0 is replaced,
 * in row-major order and in place, by the rounded mean of its non-zero
 * neighbours.
 */
module MatrixRepair {
  import opened Wrappers
  import opened MatrixText

  /**
   * `data[r][c]` as JavaScript evaluates it: the item when both indices
   * are inside the matrix, `undefined` otherwise. The top and bottom
   * neighbours are only read when their row exists; reading an absent one
   * would give `undefined` all the same, and `undefined` is skipped by the
   * averaging, so all four neighbours are read through this one function.
   */
  function Get(m: Matrix, r: int, c: int): Option<Item> {
    if 0 <= r < |m| && 0 <= c < |m[r]| then Some(m[r][c]) else None
  }

  /** A neighbour that takes part in the mean: it exists and its value is not 0. */
  predicate Good(neighbour: Option<Item>) {
    neighbour.Some? && neighbour.value.value != Num(0)
  }

  /** How many neighbours take part in the mean. */
  function GoodCount(ns: seq<Option<Item>>): (count: nat)
    ensures count <= |ns|
  {
    if ns == [] then 0 else (if Good(ns[0]) then 1 else 0) + GoodCount(ns[1..])
  }

  /** The sum of the values that take part; one `NaN` among them makes it `NaN`. */
  function GoodSum(ns: seq<Option<Item>>): Value {
    if ns == [] then Num(0)
    else
      var rest := GoodSum(ns[1..]);
      if !Good(ns[0]) then rest
      else match (ns[0].value.value, rest)
        case (Num(a), Num(b)) => Num(a + b)
        case _ => NaN
  }

  /** `Math.round(sum / count)` for a positive count: ties go up, towards positive infinity. */
  function RoundHalfUp(sum: int, count: int): int
    requires count > 0
  {
    (2 * sum + count) / (2 * count)
  }

  /** The rounded quotient is the integer nearest to `sum / count`, ties going up. */
  lemma RoundHalfUpNearest(sum: int, count: int, r: int)
    requires count > 0 && r == RoundHalfUp(sum, count)
    ensures 2 * count * r - count <= 2 * sum < 2 * count * r + count
  {
    var d := 2 * count;
    var q := (2 * sum + count) / d;
    var rem := (2 * sum + count) % d;
    assert 2 * sum + count == d * q + rem && 0 <= rem < d;
    assert d * q == 2 * count * r;
  }

  /**
   * The averaging loop and the final rounding: `NaN` when no neighbour
   * takes part (`0 / 0`) or one that does is `NaN`, otherwise the rounded
   * mean.
   */
  function Mean(ns: seq<Option<Item>>): Value {
    var count := GoodCount(ns);
    if count == 0 then NaN
    else match GoodSum(ns)
      case Num(sum) => Num(RoundHalfUp(sum, count))
      case NaN => NaN
  }

  /** Some neighbour that takes part holds `NaN`. */
  predicate HasNaN(ns: seq<Option<Item>>) {
    exists k :: 0 <= k < |ns| && Good(ns[k]) && ns[k].value.value.NaN?
  }

  lemma {:induction false} GoodSumNaN(ns: seq<Option<Item>>)
    ensures GoodSum(ns).NaN? <==> HasNaN(ns)
  {
    if ns != [] {
      GoodSumNaN(ns[1..]);
      if HasNaN(ns[1..]) {
        var k :| 0 <= k < |ns[1..]| && Good(ns[1..][k]) && ns[1..][k].value.value.NaN?;
        assert ns[k + 1] == ns[1..][k];
      }
      if HasNaN(ns) && !(Good(ns[0]) && ns[0].value.value.NaN?) {
        var k :| 0 <= k < |ns| && Good(ns[k]) && ns[k].value.value.NaN?;
        assert k != 0;
        assert ns[1..][k - 1] == ns[k];
      }
    }
  }

  /** The mean is `NaN` exactly when no neighbour takes part or one that does is `NaN`. */
  lemma MeanIsNaN(ns: seq<Option<Item>>)
    ensures Mean(ns).NaN? <==> GoodCount(ns) == 0 || HasNaN(ns)
  {
    GoodSumNaN(ns);
  }

  /** Every neighbour that takes part is a number between `lo` and `hi`. */
  predicate GoodWithin(ns: seq<Option<Item>>, lo: int, hi: int) {
    forall k :: 0 <= k < |ns| && Good(ns[k]) ==> ns[k].value.value.Num? && lo <= ns[k].value.value.n <= hi
  }

  lemma GoodWithinTail(ns: seq<Option<Item>>, lo: int, hi: int)
    requires ns != [] && GoodWithin(ns, lo, hi)
    ensures GoodWithin(ns[1..], lo, hi)
    ensures Good(ns[0]) ==> ns[0].value.value.Num? && lo <= ns[0].value.value.n <= hi
  {
    forall k | 0 <= k < |ns[1..]| && Good(ns[1..][k])
      ensures ns[1..][k].value.value.Num? && lo <= ns[1..][k].value.value.n <= hi
    {
      assert ns[1..][k] == ns[k + 1];
    }
  }

  lemma {:induction false} GoodSumWithin(ns: seq<Option<Item>>, lo: int, hi: int)
    requires GoodWithin(ns, lo, hi)
    ensures GoodSum(ns).Num?
    ensures GoodCount(ns) * lo <= GoodSum(ns).n <= GoodCount(ns) * hi
  {
    if ns != [] {
      GoodWithinTail(ns, lo, hi);
      GoodSumWithin(ns[1..], lo, hi);
      var c := GoodCount(ns[1..]);
      var sum := GoodSum(ns[1..]).n;
      if Good(ns[0]) {
        var v := ns[0].value.value.n;
        assert GoodSum(ns) == Num(v + sum);
        assert GoodCount(ns) == c + 1;
        AddWithin(c, sum, v, lo, hi);
      } else {
        assert GoodSum(ns) == Num(sum) && GoodCount(ns) == c;
      }
    }
  }

  lemma AddWithin(c: int, sum: int, v: int, lo: int, hi: int)
    requires c * lo <= sum <= c * hi && lo <= v <= hi
    ensures (c + 1) * lo <= sum + v <= (c + 1) * hi
  {
    assert (c + 1) * lo == c * lo + lo;
    assert (c + 1) * hi == c * hi + hi;
  }

  lemma SignOfProduct(d: int, x: int)
    requires d > 0 && d * x < 0
    ensures x < 0
  {
  }

  /** A rounded mean of values between `lo` and `hi` is between them as well. */
  lemma RoundWithin(sum: int, count: int, lo: int, hi: int)
    requires count > 0 && count * lo <= sum <= count * hi
    ensures lo <= RoundHalfUp(sum, count) <= hi
  {
    var r := RoundHalfUp(sum, count);
    RoundHalfUpNearest(sum, count, r);
    var d := 2 * count;
    assert d * (r - hi - 1) == d * r - d * hi - d;
    assert d * (r - hi - 1) < 0;
    SignOfProduct(d, r - hi - 1);
    assert d * (lo - 1 - r) == d * lo - d - d * r;
    assert d * (lo - 1 - r) < 0;
    SignOfProduct(d, lo - 1 - r);
  }

  /**
   * When some neighbour takes part and all that do are numbers between
   * `lo` and `hi`, the mean is a number between `lo` and `hi` as well.
   */
  lemma MeanWithin(ns: seq<Option<Item>>, lo: int, hi: int)
    requires GoodCount(ns) > 0 && GoodWithin(ns, lo, hi)
    ensures Mean(ns).Num? && lo <= Mean(ns).n <= hi
  {
    GoodSumWithin(ns, lo, hi);
    RoundWithin(GoodSum(ns).n, GoodCount(ns), lo, hi);
  }

  /** Left, right, top and bottom neighbours of column `x` in row `y`, in the order they are read. */
  function Neighbours(m: Matrix, x: int, y: int): (ns: seq<Option<Item>>)
    ensures |ns| == 4
  {
    [Get(m, y, x - 1), Get(m, y, x + 1), Get(m, y - 1, x), Get(m, y + 1, x)]
  }

  /** `interpolate(data, x, y)`: the rounded mean of the neighbours that exist and are not 0. */
  function Interpolate(m: Matrix, x: int, y: int): (v: Value)
    requires 0 <= y < |m|
    ensures GoodCount(Neighbours(m, x, y)) == 0 ==> v == NaN
  {
    Mean(Neighbours(m, x, y))
  }

  /**
   * An entry surrounded by numbers between `lo` and `hi`, at least one of
   * them non-zero, is interpolated to a number between `lo` and `hi`.
   */
  lemma InterpolateWithin(m: Matrix, x: int, y: int, lo: int, hi: int)
    requires 0 <= y < |m|
    requires GoodCount(Neighbours(m, x, y)) > 0 && GoodWithin(Neighbours(m, x, y), lo, hi)
    ensures Interpolate(m, x, y).Num? && lo <= Interpolate(m, x, y).n <= hi
  {
    MeanWithin(Neighbours(m, x, y), lo, hi);
  }

  lemma {:induction false} NoneGood(ns: seq<Option<Item>>)
    requires forall k :: 0 <= k < |ns| ==> !Good(ns[k])
    ensures GoodCount(ns) == 0
  {
    if ns != [] {
      assert !Good(ns[0]);
      NoneGood(ns[1..]);
    }
  }

  predicate InMatrix(m: Matrix, r: int, c: int) {
    0 <= r < |m| && 0 <= c < |m[r]|
  }

  /** The same number of rows, and row for row the same length. */
  predicate SameShape(a: Matrix, b: Matrix) {
    |a| == |b| && forall r :: 0 <= r < |a| ==> |a[r]| == |b[r]|
  }

  /** Cell `(a, b)` comes strictly before cell `(i, j)` in row-major order. */
  predicate Precedes(a: int, b: int, i: int, j: int) {
    a < i || (a == i && b < j)
  }

  /** One step of `process`: the entry at row `i`, column `j` is interpolated when it is 0. */
  function Visit(m: Matrix, i: nat, j: nat): (r: Matrix)
    requires InMatrix(m, i, j)
    ensures SameShape(m, r)
  {
    if m[i][j].value == Num(0) then m[i := m[i][j := m[i][j].(value := Interpolate(m, j, i))]] else m
  }

  lemma VisitElsewhere(m: Matrix, i: nat, j: nat, r: int, c: int)
    requires InMatrix(m, i, j) && (r, c) != (i, j)
    ensures Get(Visit(m, i, j), r, c) == Get(m, r, c)
  {
  }

  /** The cells from row `i`, column `j` onwards, visited in row-major order. */
  function Sweep(m: Matrix, i: nat, j: nat): Matrix
    decreases |m| - i, if i < |m| then |m[i]| - j else 0
  {
    if i >= |m| then m
    else if j >= |m[i]| then Sweep(m, i + 1, 0)
    else Sweep(Visit(m, i, j), i, j + 1)
  }

  /** `process(data)`, as the matrix it leaves behind. */
  function Processed(data: Matrix): (out: Matrix)
    ensures SameShape(data, out)
  {
    SweepShape(data, 0, 0);
    Sweep(data, 0, 0)
  }

  lemma {:induction false} SweepShape(m: Matrix, i: nat, j: nat)
    ensures SameShape(m, Sweep(m, i, j))
    decreases |m| - i, if i < |m| then |m[i]| - j else 0
  {
    if i < |m| {
      if j >= |m[i]| {
        SweepShape(m, i + 1, 0);
      } else {
        SweepShape(Visit(m, i, j), i, j + 1);
      }
    }
  }

  /**
   * What a zero entry at `(a, b)` sees when its turn comes: its left and
   * top neighbours already hold their final values, its right and bottom
   * neighbours still hold the values it was given.
   */
  function Repairing(before: Matrix, after: Matrix, a: int, b: int): seq<Option<Item>> {
    [Get(after, a, b - 1), Get(before, a, b + 1), Get(after, a - 1, b), Get(before, a + 1, b)]
  }

  lemma GetSameShape(m: Matrix, n: Matrix, r: int, c: int)
    requires SameShape(m, n)
    ensures Get(m, r, c).Some? <==> Get(n, r, c).Some?
  {
  }

  /**
   * The sweep from `(i, j)` never changes a separator, and leaves alone
   * the non-zero entries and the cells before `(i, j)`.
   */
  lemma {:induction false} SweepFrame(m: Matrix, i: nat, j: nat, a: nat, b: nat)
    requires InMatrix(m, a, b)
    ensures SameShape(m, Sweep(m, i, j))
    ensures Sweep(m, i, j)[a][b].separator == m[a][b].separator
    ensures m[a][b].value != Num(0) ==> Sweep(m, i, j)[a][b] == m[a][b]
    ensures Precedes(a, b, i, j) ==> Sweep(m, i, j)[a][b] == m[a][b]
    decreases |m| - i, if i < |m| then |m[i]| - j else 0
  {
    SweepShape(m, i, j);
    if i < |m| {
      if j >= |m[i]| {
        SweepFrame(m, i + 1, 0, a, b);
      } else {
        SweepFrame(Visit(m, i, j), i, j + 1, a, b);
      }
    }
  }

  /** The left and top neighbours of the cell just visited are final. */
  lemma LeftTopFinal(m: Matrix, i: nat, j: nat)
    requires InMatrix(m, i, j) && m[i][j].value == Num(0)
    ensures Visit(m, i, j)[i][j].value
      == Mean(Repairing(m, Sweep(Visit(m, i, j), i, j + 1), i, j))
  {
    var next := Visit(m, i, j);
    var r := Sweep(next, i, j + 1);
    SweepShape(next, i, j + 1);
    if j > 0 {
      SweepFrame(next, i, j + 1, i, j - 1);
    }
    if i > 0 && j < |m[i - 1]| {
      SweepFrame(next, i, j + 1, i - 1, j);
    }
    GetSameShape(m, r, i, j - 1);
    GetSameShape(m, r, i - 1, j);
    assert Get(r, i, j - 1) == Get(m, i, j - 1);
    assert Get(r, i - 1, j) == Get(m, i - 1, j);
  }

  /**
   * The sweep from `(i, j)` gives each zero entry at or after `(i, j)` the
   * mean of what it sees on its turn.
   */
  lemma {:induction false} SweepZero(m: Matrix, i: nat, j: nat, a: nat, b: nat)
    requires InMatrix(m, a, b) && m[a][b].value == Num(0) && !Precedes(a, b, i, j)
    ensures SameShape(m, Sweep(m, i, j))
    ensures Sweep(m, i, j)[a][b].value == Mean(Repairing(m, Sweep(m, i, j), a, b))
    decreases |m| - i, if i < |m| then |m[i]| - j else 0
  {
    SweepShape(m, i, j);
    if j >= |m[i]| {
      SweepZero(m, i + 1, 0, a, b);
    } else {
      var next := Visit(m, i, j);
      SweepShape(next, i, j + 1);
      if (a, b) == (i, j) {
        SweepFrame(next, i, j + 1, a, b);
        LeftTopFinal(m, i, j);
      } else {
        SweepZero(next, i, j + 1, a, b);
        VisitElsewhere(m, i, j, a, b + 1);
        VisitElsewhere(m, i, j, a + 1, b);
      }
    }
  }

  /** `process(data)`: the shape, the separators and every non-zero entry stay as they are. */
  lemma ProcessedFrame(data: Matrix, a: nat, b: nat)
    requires InMatrix(data, a, b)
    ensures SameShape(data, Processed(data))
    ensures Processed(data)[a][b].separator == data[a][b].separator
    ensures data[a][b].value != Num(0) ==> Processed(data)[a][b] == data[a][b]
  {
    SweepFrame(data, 0, 0, a, b);
  }

  /**
   * `process(data)`: a zero entry becomes the mean of its non-zero
   * neighbours as they stand on its turn, final to the left and above,
   * original to the right and below.
   */
  lemma ProcessedZero(data: Matrix, a: nat, b: nat)
    requires InMatrix(data, a, b) && data[a][b].value == Num(0)
    ensures SameShape(data, Processed(data))
    ensures Processed(data)[a][b].value == Mean(Repairing(data, Processed(data), a, b))
  {
    SweepZero(data, 0, 0, a, b);
  }

  /**
   * A matrix holding a single 0 gives that entry no neighbour at all, so
   * `process` divides 0 by 0: the entry becomes `NaN` and keeps its separator.
   */
  lemma LoneZeroBecomesNaN(separator: char)
    ensures Processed([[Item(Num(0), separator)]]) == [[Item(NaN, separator)]]
  {
    var data := [[Item(Num(0), separator)]];
    var out := Processed(data);
    ProcessedZero(data, 0, 0);
    ProcessedFrame(data, 0, 0);
    var around := Repairing(data, out, 0, 0);
    assert around == [None, None, None, None];
    NoneGood(around);
    assert |out| == 1 && |out[0]| == 1;
    assert out[0][0] == Item(NaN, separator);
    assert out[0] == [out[0][0]];
  }

  /** Neighbours `1` and `-1` average to 0, so the entry between them stays 0. */
  lemma ZeroCanSurvive()
    ensures var data := [[Item(Num(1), ' '), Item(Num(0), ' '), Item(Num(-1), ' ')]];
      |Processed(data)| == 1 && |Processed(data)[0]| == 3 && Processed(data)[0][1].value == Num(0)
  {
    var data := [[Item(Num(1), ' '), Item(Num(0), ' '), Item(Num(-1), ' ')]];
    var out := Processed(data);
    ProcessedFrame(data, 0, 0);
    ProcessedZero(data, 0, 1);
    var ns := Repairing(data, out, 0, 1);
    assert ns == [Some(data[0][0]), Some(data[0][2]), None, None];
    assert GoodCount(ns) == 2 by {
      assert ns[1..][1..][1..][1..] == [];
    }
    assert GoodSum(ns) == Num(0) by {
      assert ns[1..][1..][1..][1..] == [];
    }
  }

  /**
   * A zero with no usable neighbour becomes `NaN`, and because `NaN` is
   * not 0 the zero after it counts that `NaN` as a neighbour and becomes
   * `NaN` too, although its other neighbour is `4`.
   */
  lemma NaNSpreads()
    ensures var data := [[Item(Num(0), ' '), Item(Num(0), ' '), Item(Num(4), ' ')]];
      |Processed(data)| == 1 && |Processed(data)[0]| == 3
      && Processed(data)[0][0].value == NaN && Processed(data)[0][1].value == NaN
  {
    var data := [[Item(Num(0), ' '), Item(Num(0), ' '), Item(Num(4), ' ')]];
    var out := Processed(data);
    ProcessedZero(data, 0, 0);
    ProcessedZero(data, 0, 1);
    var first := Repairing(data, out, 0, 0);
    assert first == [None, Some(data[0][1]), None, None];
    assert GoodCount(first) == 0 by {
      assert first[1..][1..][1..][1..] == [];
    }
    var second := Repairing(data, out, 0, 1);
    assert second == [Some(out[0][0]), Some(data[0][2]), None, None];
    assert GoodSum(second) == NaN by {
      assert second[1..][1..][1..][1..] == [];
    }
    assert GoodCount(second) == 2 by {
      assert second[1..][1..][1..][1..] == [];
    }
  }

  /**
   * Cell `(a, b)` of `out` is what `process(data)` leaves there: the
   * separator of `data`, the entry of `data` when that is not 0, and
   * otherwise the mean of what the entry sees on its turn.
   */
  predicate RepairedAt(data: Matrix, out: Matrix, a: int, b: int) {
    && InMatrix(data, a, b) && InMatrix(out, a, b)
    && out[a][b].separator == data[a][b].separator
    && if data[a][b].value != Num(0) then out[a][b] == data[a][b]
       else out[a][b].value == Mean(Repairing(data, out, a, b))
  }

  /** `out` has the shape of `data` and every cell as `process(data)` leaves it. */
  ghost predicate Repaired(data: Matrix, out: Matrix) {
    SameShape(data, out) && forall a, b :: InMatrix(data, a, b) ==> RepairedAt(data, out, a, b)
  }

  lemma {:induction false} RepairedCellsAgree(data: Matrix, one: Matrix, other: Matrix, a: nat, b: nat)
    requires Repaired(data, one) && Repaired(data, other) && InMatrix(data, a, b)
    ensures one[a][b] == other[a][b]
    decreases a, b
  {
    assert RepairedAt(data, one, a, b) && RepairedAt(data, other, a, b);
    if data[a][b].value == Num(0) {
      if b > 0 {
        RepairedCellsAgree(data, one, other, a, b - 1);
      }
      if a > 0 && b < |data[a - 1]| {
        RepairedCellsAgree(data, one, other, a - 1, b);
      }
      assert Repairing(data, one, a, b) == Repairing(data, other, a, b);
    }
  }

  /** The cell-by-cell description of `process` has exactly one solution. */
  lemma RepairedUnique(data: Matrix, one: Matrix, other: Matrix)
    requires Repaired(data, one) && Repaired(data, other)
    ensures one == other
  {
    forall a | 0 <= a < |one|
      ensures one[a] == other[a]
    {
      forall b | 0 <= b < |one[a]|
        ensures one[a][b] == other[a][b]
      {
        RepairedCellsAgree(data, one, other, a, b);
      }
    }
  }

  /** `process(data)` is the one matrix `Repaired` describes. */
  lemma ProcessedIsRepaired(data: Matrix, out: Matrix)
    ensures Repaired(data, out) <==> out == Processed(data)
  {
    SweepShape(data, 0, 0);
    forall a, b | InMatrix(data, a, b)
      ensures RepairedAt(data, Processed(data), a, b)
    {
      ProcessedFrame(data, a, b);
      if data[a][b].value == Num(0) {
        ProcessedZero(data, a, b);
      }
    }
    if Repaired(data, out) {
      RepairedUnique(data, out, Processed(data));
    }
  }

  /** `process`: rewrites the zero entries of `data` in place, row by row. */
  method Process(data: Matrix) returns (out: Matrix)
    ensures Repaired(data, out)
  {
    var m := data;
    var i := 0;
    while i < |m|
      invariant i <= |m| && SameShape(data, m)
      invariant Sweep(m, i, 0) == Processed(data)
    {
      var j := 0;
      while j < |m[i]|
        invariant i < |m| && j <= |m[i]| && SameShape(data, m)
        invariant Sweep(m, i, j) == Processed(data)
      {
        if m[i][j].value == Num(0) {
          m := m[i := m[i][j := m[i][j].(value := Interpolate(m, j, i))]];
        }
        j := j + 1;
      }
      i := i + 1;
    }
    out := m;
    ProcessedIsRepaired(data, out);
  }
}

=== FILE: matrix_text.dfy ===
/**
 * The text side of the matrix repair page: `parseInput` reads lines of
 * signed integers, each followed by its own separator, and `printMatrix`
 * writes them back the same way.
 */
module MatrixText {
  import opened Wrappers
  import opened Decimal

  /**
   * A JavaScript number as this program can meet it: an integer, or `NaN`
   * (what averaging no usable neighbour produces). `-0` behaves exactly
   * like `0` here (`===`, `!==` and printing all treat them alike), so it
   * is `Num(0)`.
   */
  datatype Value = Num(n: int) | NaN

  /** One matrix entry: a number and the separator that followed it. */
  datatype Item = Item(value: Value, separator: char)

  /** Rows of items, indexed as `data[row][column]`. */
  type Matrix = seq<seq<Item>>

  /** A character of JavaScript's regular-expression class `\s`. */
  predicate IsJsSpace(c: char) {
    var n := c as int;
    || 0x09 <= n <= 0x0D || n == 0x20 || n == 0xA0 || n == 0x1680
    || 0x2000 <= n <= 0x200A || n == 0x2028 || n == 0x2029 || n == 0x202F
    || n == 0x205F || n == 0x3000 || n == 0xFEFF
  }

  /** The separator group `(\s|,)` of the item pattern. */
  predicate IsSeparator(c: char) {
    IsJsSpace(c) || c == ','
  }

  /** `text.split('\n')`: the pieces between line breaks, empty ones included. */
  function SplitLines(text: string): (lines: seq<string>)
    ensures |lines| >= 1
    decreases |text|
  {
    if text == [] then [""]
    else
      var rest := SplitLines(text[1..]);
      if text[0] == '\n' then [""] + rest else [[text[0]] + rest[0]] + rest[1..]
  }

  /** A piece with no line break in it is split off whole at the first line break. */
  lemma {:induction false} SplitLinesAtBreak(line: string, rest: string)
    requires '\n' !in line
    ensures SplitLines(line + "\n" + rest) == [line] + SplitLines(rest)
    decreases |line|
  {
    if line == [] {
      assert line + "\n" + rest == "\n" + rest;
    } else {
      assert (line + "\n" + rest)[1..] == line[1..] + "\n" + rest;
      SplitLinesAtBreak(line[1..], rest);
      assert [line[0]] + line[1..] == line;
    }
  }

  /** A line break at the very end adds one empty piece after the others. */
  lemma {:induction false} SplitLinesFinalBreak(text: string)
    ensures SplitLines(text + "\n") == SplitLines(text) + [""]
    decreases |text|
  {
    if text == [] {
      assert SplitLines("\n") == [""] + SplitLines("");
    } else {
      assert (text + "\n")[1..] == text[1..] + "\n";
      SplitLinesFinalBreak(text[1..]);
    }
  }

  /** The length of the run of decimal digits that opens `s`. */
  function DigitRun(s: string): (k: nat)
    ensures k <= |s|
  {
    if s != [] && IsDigit(s[0]) then 1 + DigitRun(s[1..]) else 0
  }

  lemma {:induction false} DigitRunOfDigits(digits: string, rest: string)
    requires AllDigits(digits) && (rest == [] || !IsDigit(rest[0]))
    ensures DigitRun(digits + rest) == |digits|
  {
    if digits != [] {
      assert (digits + rest)[1..] == digits[1..] + rest;
      DigitRunOfDigits(digits[1..], rest);
    } else {
      assert digits + rest == rest;
    }
  }

  lemma DigitRunIsDigits(s: string, k: nat)
    requires k == DigitRun(s)
    ensures AllDigits(s[..k])
    ensures k < |s| ==> !IsDigit(s[k])
  {
    DigitRunFacts(s);
  }

  lemma {:induction false} DigitRunFacts(s: string)
    ensures AllDigits(s[..DigitRun(s)])
    ensures DigitRun(s) < |s| ==> !IsDigit(s[DigitRun(s)])
  {
    if s != [] && IsDigit(s[0]) {
      DigitRunFacts(s[1..]);
      assert s[..DigitRun(s)] == [s[0]] + s[1..][..DigitRun(s[1..])];
    }
  }

  /** What one successful match of `(\-?\d+)(\s|,)` yields: the item and how much text it used. */
  datatype Match = Match(item: Item, length: nat)

  /**
   * The match of `(\-?\d+)(\s|,)` that starts exactly at the front of `s`,
   * if there is one: an optional minus sign, the whole run of digits after
   * it, and a separator right behind that run.
   */
  function MatchAt(s: string): (m: Option<Match>)
    ensures m.Some? ==> 2 <= m.value.length <= |s|
  {
    var sign := if s != [] && s[0] == '-' then 1 else 0;
    var k := DigitRun(s[sign..]);
    if k >= 1 && sign + k < |s| && IsSeparator(s[sign + k]) then
      DigitRunIsDigits(s[sign..], k);
      assert s[..sign + k][sign..] == s[sign..][..k];
      Some(Match(Item(Num(ParseInt(s[..sign + k])), s[sign + k]), sign + k + 1))
    else None
  }

  /**
   * The `exec` loop with the global flag: from the current position, the
   * leftmost match is taken and scanning resumes right after it; where no
   * match starts, the search moves on by one character.
   */
  function Scan(s: string): (items: seq<Item>)
    decreases |s|
  {
    if s == [] then []
    else
      match MatchAt(s)
      case Some(m) => [m.item] + Scan(s[m.length..])
      case None => Scan(s[1..])
  }

  /** `parseInput`'s handling of one line. */
  function ParseLine(line: string): seq<Item> {
    Scan(line)
  }

  /** The lines that are not empty, in order. */
  function NonEmptyLines(lines: seq<string>): (kept: seq<string>)
    ensures |kept| <= |lines|
  {
    if lines == [] then []
    else (if lines[0] == "" then [] else [lines[0]]) + NonEmptyLines(lines[1..])
  }

  /** An empty line at the end is dropped like every other empty line. */
  lemma {:induction false} NonEmptyLinesDropsFinalEmpty(lines: seq<string>)
    ensures NonEmptyLines(lines + [""]) == NonEmptyLines(lines)
  {
    if lines == [] {
      assert NonEmptyLines([""]) == [] + NonEmptyLines([]);
    } else {
      assert (lines + [""])[1..] == lines[1..] + [""];
      NonEmptyLinesDropsFinalEmpty(lines[1..]);
    }
  }

  /** One row per line, in order. */
  function ParseRows(lines: seq<string>): (m: Matrix)
    ensures |m| == |lines|
  {
    if lines == [] then [] else [ParseLine(lines[0])] + ParseRows(lines[1..])
  }

  /** One row per non-empty line, in order; empty lines are skipped. */
  function ParseLines(lines: seq<string>): Matrix {
    ParseRows(NonEmptyLines(lines))
  }

  /** `parseInput`. */
  function ParseInput(text: string): Matrix {
    ParseLines(SplitLines(text))
  }

  /** A newline at the end of the text, as a file usually has, adds no row. */
  lemma TrailingNewlineIgnored(text: string)
    ensures ParseInput(text + "\n") == ParseInput(text)
  {
    SplitLinesFinalBreak(text);
    NonEmptyLinesDropsFinalEmpty(SplitLines(text));
  }

  /** JavaScript's rendering of a number in `value + separator`. */
  function ValueString(v: Value): string {
    match v
    case Num(n) => IntString(n)
    case NaN => "NaN"
  }

  /** Every item of a row: its number, then its separator. */
  function PrintRow(row: seq<Item>): string {
    if row == [] then [] else ValueString(row[0].value) + [row[0].separator] + PrintRow(row[1..])
  }

  /** `printMatrix`: every row followed by a line break. */
  function PrintMatrix(m: Matrix): (s: string)
    ensures m != [] ==> |s| > 0 && s[|s| - 1] == '\n'
  {
    if m == [] then [] else PrintRow(m[0]) + "\n" + PrintMatrix(m[1..])
  }

  /**
   * Every parsed item holds a number (never `NaN`) and one of the
   * separator characters.
   */
  lemma {:induction false} ScanItems(s: string)
    ensures forall i :: 0 <= i < |Scan(s)| ==> Scan(s)[i].value.Num? && IsSeparator(Scan(s)[i].separator)
    decreases |s|
  {
    if s != [] {
      match MatchAt(s)
      case Some(m) => ScanItems(s[m.length..]);
      case None => ScanItems(s[1..]);
    }
  }

  /** A number with no separator after it yields no item. */
  lemma {:induction false} ScanNeedsSeparator(s: string)
    requires forall i :: 0 <= i < |s| ==> !IsSeparator(s[i])
    ensures Scan(s) == []
    decreases |s|
  {
    if s != [] {
      assert MatchAt(s) == None;
      ScanNeedsSeparator(s[1..]);
    }
  }

  /** The last number of `12,34` has no separator after it, so it is not read. */
  lemma TrailingNumberDropped()
    ensures ParseLine("12,34") == [Item(Num(12), ',')]
  {
    var s := "12,34";
    assert MatchAt(s) == Some(Match(Item(Num(12), ','), 3)) by {
      assert DigitRun(s) == 2 by {
        assert s[1..][1..] == ",34";
      }
      assert s[..2] == "12";
      assert ParseInt("12") == 12 by {
        assert DigitsValue("12") == 12 by {
          assert "12"[..1] == "1";
        }
      }
    }
    assert s[3..] == "34";
    ScanNeedsSeparator("34");
  }

  /** An item prints as text the pattern matches in full, and as nothing more. */
  lemma SeparatorNotDigit(c: char)
    requires IsSeparator(c)
    ensures !IsDigit(c) && c != '-'
  {
  }

  lemma MatchPrinted(n: int, separator: char, rest: string)
    requires IsSeparator(separator)
    ensures MatchAt(IntString(n) + [separator] + rest)
      == Some(Match(Item(Num(n), separator), |IntString(n)| + 1))
  {
    var text := IntString(n);
    var tail := [separator] + rest;
    var s := text + tail;
    assert s == text + [separator] + rest;
    var sign := if n < 0 then 1 else 0;
    assert s[0] == text[0];
    assert (s != [] && s[0] == '-') <==> n < 0;
    assert s[sign..] == text[sign..] + tail;
    SeparatorNotDigit(separator);
    assert tail[0] == separator;
    DigitRunOfDigits(text[sign..], tail);
    var k := DigitRun(s[sign..]);
    assert k == |text| - sign;
    assert s[sign + k] == separator;
    assert s[..sign + k] == text;
    ParseIntOfIntString(n);
  }


  /** The items a row is printed from, no more and no fewer. */
  predicate RowPrintable(row: seq<Item>) {
    forall i :: 0 <= i < |row| ==> row[i].value.Num? && IsSeparator(row[i].separator) && row[i].separator != '\n'
  }

  lemma {:induction false} ParsePrintedRow(row: seq<Item>)
    requires RowPrintable(row)
    ensures Scan(PrintRow(row)) == row
  {
    if row != [] {
      var n, separator := row[0].value.n, row[0].separator;
      var rest := PrintRow(row[1..]);
      var s := IntString(n) + [separator] + rest;
      assert PrintRow(row) == s;
      MatchPrinted(n, separator, rest);
      assert s[|IntString(n)| + 1..] == rest;
      assert Scan(s) == [Item(Num(n), separator)] + Scan(rest);
      assert RowPrintable(row[1..]) by {
        assert forall i :: 0 <= i < |row[1..]| ==> row[1..][i] == row[i + 1];
      }
      ParsePrintedRow(row[1..]);
      assert row == [Item(Num(n), separator)] + row[1..];
    }
  }

  lemma {:induction false} PrintedRowHasNoBreak(row: seq<Item>)
    requires RowPrintable(row)
    ensures '\n' !in PrintRow(row)
  {
    if row != [] {
      PrintedRowHasNoBreak(row[1..]);
      var text := IntString(row[0].value.n);
      assert '\n' !in text by {
        if row[0].value.n < 0 {
          assert text == "-" + DecimalString(-row[0].value.n);
        }
      }
    }
  }

  /**
   * A matrix that printing and parsing again gives back: every row holds
   * an item, every value is a number and every separator is one the
   * pattern accepts, other than the line break itself.
   */
  predicate RowsPrintable(m: Matrix) {
    forall r :: 0 <= r < |m| ==> m[r] != [] && RowPrintable(m[r])
  }

  /** A non-empty first line becomes the first row, and the rest of the text the other rows. */
  lemma ParseInputFirstLine(line: string, rest: string)
    requires '\n' !in line && line != ""
    ensures ParseInput(line + "\n" + rest) == [ParseLine(line)] + ParseInput(rest)
  {
    SplitLinesAtBreak(line, rest);
    var lines := SplitLines(rest);
    assert NonEmptyLines([line] + lines) == [line] + NonEmptyLines(lines) by {
      assert ([line] + lines)[0] == line && ([line] + lines)[1..] == lines;
    }
    var rows := [line] + NonEmptyLines(lines);
    assert rows[0] == line && rows[1..] == NonEmptyLines(lines);
  }

  /**
   * A line with no item in it becomes an empty row, which prints as a bare
   * line break, and a bare line break reads back as no row at all.
   */
  lemma EmptyRowLost()
    ensures ParseInput("x") == [[]]
    ensures PrintMatrix([[]]) == "\n"
    ensures ParseInput(PrintMatrix([[]])) == []
  {
    assert SplitLines("x") == ["x"] by {
      var text := "x";
      assert text[1..] == [] && SplitLines(text[1..]) == [""];
      assert SplitLines(text) == [[text[0]] + ""] + [""][1..];
      assert [text[0]] + "" == text && [""][1..] == [];
    }
    assert ParseLine("x") == [] by {
      assert MatchAt("x") == None;
      assert "x"[1..] == [];
    }
    assert NonEmptyLines(["x"]) == ["x"];
    assert PrintRow([]) == [];
    assert SplitLines("\n") == ["", ""] by {
      assert "\n"[1..] == [];
    }
    assert NonEmptyLines(["", ""]) == [] by {
      assert ["", ""][1..] == [""];
      assert [""][1..] == [];
    }
  }

  lemma PrintableParts(m: Matrix)
    requires RowsPrintable(m) && m != []
    ensures RowsPrintable(m[1..]) && RowPrintable(m[0]) && m[0] != []
  {
    assert forall r :: 0 <= r < |m[1..]| ==> m[1..][r] == m[r + 1];
  }

  lemma PrintedRowNotEmpty(row: seq<Item>)
    requires row != []
    ensures PrintRow(row) != ""
  {
    assert |ValueString(row[0].value) + [row[0].separator]| >= 1;
  }

  /** Reading a printed matrix gives the matrix back. */
  lemma {:induction false} ParsePrinted(m: Matrix)
    requires RowsPrintable(m)
    ensures ParseInput(PrintMatrix(m)) == m
  {
    if m == [] {
      assert SplitLines("") == [""];
    } else {
      PrintableParts(m);
      var line := PrintRow(m[0]);
      PrintedRowHasNoBreak(m[0]);
      PrintedRowNotEmpty(m[0]);
      ParseInputFirstLine(line, PrintMatrix(m[1..]));
      ParsePrinted(m[1..]);
      ParsePrintedRow(m[0]);
      assert m == [m[0]] + m[1..];
    }
  }
}

=== FILE: merge_queue.dfy ===
/**
 * The `PriorityQueue<Node>` of the tree builder, as a sequence whose order
 * carries no meaning: `Poll` removes SOME node of least count, so nothing
 * here depends on how the heap breaks ties between equal counts.
 */
module MergeQueue {
  import opened Counts
  import opened Nodes

  lemma SplitAt<T>(q: seq<T>, i: nat)
    requires i < |q|
    ensures q == q[..i] + [q[i]] + q[i + 1..]
  {
  }

  function RemoveAt(q: seq<Tree>, i: nat): (r: seq<Tree>)
    requires i < |q|
    ensures |r| == |q| - 1
    ensures multiset(r) + multiset{q[i]} == multiset(q)
  {
    SplitAt(q, i);
    q[..i] + q[i + 1..]
  }

  /** `PriorityQueue` holds no `null`. */
  predicate NoNulls(q: seq<Tree>) {
    forall j :: 0 <= j < |q| ==> q[j].Node?
  }

  /** `q[i]` has the least count in the queue. */
  predicate IsMinAt(q: seq<Tree>, i: int)
    requires NoNulls(q)
  {
    0 <= i < |q| && forall j :: 0 <= j < |q| ==> q[i].wordCount <= q[j].wordCount
  }

  lemma {:induction false} MinExists(q: seq<Tree>)
    requires |q| > 0 && NoNulls(q)
    ensures exists i :: IsMinAt(q, i)
    decreases |q|
  {
    if |q| > 1 {
      var front := q[..|q| - 1];
      MinExists(front);
      var i :| IsMinAt(front, i);
      if q[i].wordCount <= q[|q| - 1].wordCount {
        assert IsMinAt(q, i);
      } else {
        assert IsMinAt(q, |q| - 1);
      }
    } else {
      assert IsMinAt(q, 0);
    }
  }

  /** The leaf entries of every pending tree, one tree after another. */
  function QueueLeaves(q: seq<Tree>): seq<Entry> {
    if q == [] then [] else QueueLeaves(q[..|q| - 1]) + Leaves(q[|q| - 1])
  }

  lemma {:induction false} QueueLeavesAppend(a: seq<Tree>, b: seq<Tree>)
    ensures QueueLeaves(a + b) == QueueLeaves(a) + QueueLeaves(b)
    decreases |b|
  {
    if b == [] {
      assert a + b == a;
    } else {
      assert (a + b)[..|a + b| - 1] == a + b[..|b| - 1];
      QueueLeavesAppend(a, b[..|b| - 1]);
    }
  }

  /** Removing a tree from the queue removes exactly its leaves. */
  lemma QueueLeavesAround(a: seq<Tree>, t: Tree, b: seq<Tree>)
    ensures QueueLeaves(a + [t] + b) == QueueLeaves(a) + Leaves(t) + QueueLeaves(b)
  {
    QueueLeavesAppend(a + [t], b);
    assert (a + [t])[..|a|] == a;
  }

  lemma QueueLeavesRemove(q: seq<Tree>, i: nat)
    requires i < |q|
    ensures multiset(QueueLeaves(RemoveAt(q, i))) + multiset(Leaves(q[i])) == multiset(QueueLeaves(q))
  {
    var a, b := q[..i], q[i + 1..];
    SplitAt(q, i);
    assert RemoveAt(q, i) == a + b;
    QueueLeavesAround(a, q[i], b);
    QueueLeavesAppend(a, b);
    var la, lt, lb := QueueLeaves(a), Leaves(q[i]), QueueLeaves(b);
    assert multiset(la + lt + lb) == multiset(la) + multiset(lt) + multiset(lb);
  }

  /**
   * `PriorityQueue.poll`: `null` on an empty queue, otherwise some node of
   * least count, removed from the queue.
   */
  method Poll(q: seq<Tree>) returns (node: Tree, rest: seq<Tree>)
    requires NoNulls(q)
    ensures NoNulls(rest)
    ensures q == [] ==> node == Null && rest == []
    ensures q != [] ==> node in q && forall t :: t in q ==> node.Node? && t.Node? && node.wordCount <= t.wordCount
    ensures q != [] ==> multiset(rest) + multiset{node} == multiset(q)
    ensures forall t :: t in rest ==> t in q
    ensures q != [] ==> |rest| == |q| - 1
    ensures q != [] ==> multiset(QueueLeaves(rest)) + multiset(Leaves(node)) == multiset(QueueLeaves(q))
  {
    if q == [] {
      return Null, [];
    }
    MinExists(q);
    var i :| IsMinAt(q, i);
    node := q[i];
    rest := RemoveAt(q, i);
    QueueLeavesRemove(q, i);
    forall t | t in rest
      ensures t in q
    {
      assert t in multiset(rest);
    }
  }

  /** `PriorityQueue.offer`: the queue gains the node and its leaves. */
  lemma Offer(q: seq<Tree>, node: Tree)
    ensures multiset(QueueLeaves(q + [node])) == multiset(QueueLeaves(q)) + multiset(Leaves(node))
  {
    assert (q + [node])[..|q|] == q;
  }
}

=== FILE: nodes.dfy ===
/**
 * The binary tree node of the word-count merge tree (`Node`), with Java's
 * `null` as the `Null` variant, and the shape invariants the merge keeps.
 */
module Nodes {
  import opened Wrappers
  import opened Counts

  /**
   * `wordCount` is the node's count; `word` is the token a leaf was made
   * from (internal nodes carry none); `left` and `right` are the children.
   */
  datatype Tree = Null | Node(wordCount: nat, word: Option<string>, left: Tree, right: Tree)

  /** `new Node(wordCount)`: a node with that count and no children. */
  function NewNode(wordCount: nat): (n: Tree)
    ensures n.Node? && n.wordCount == wordCount
    ensures n.left == Null && n.right == Null
  {
    Node(wordCount, None, Null, Null)
  }

  /** `new Node(wordCount, left, right)`: stores exactly the three values. */
  function NewParent(wordCount: nat, left: Tree, right: Tree): (n: Tree)
    ensures n.Node? && n.wordCount == wordCount
    ensures n.left == left && n.right == right && n.word == None
  {
    Node(wordCount, None, left, right)
  }

  /** The leaf the builder makes for one word and its count. */
  function NewLeaf(wordCount: nat, word: string): (n: Tree)
    ensures IsLeaf(n) && n.wordCount == wordCount && n.word == Some(word)
    ensures Leaves(n) == [(word, wordCount)]
  {
    Node(wordCount, Some(word), Null, Null)
  }

  /** `compareTo`: `Long.compareTo` on the two counts, which yields -1, 0 or 1. */
  function CompareTo(a: Tree, b: Tree): (r: int)
    requires a.Node? && b.Node?
    ensures r < 0 <==> a.wordCount < b.wordCount
    ensures r == 0 <==> a.wordCount == b.wordCount
    ensures r > 0 <==> a.wordCount > b.wordCount
    ensures -1 <= r <= 1
  {
    if a.wordCount < b.wordCount then -1 else if a.wordCount == b.wordCount then 0 else 1
  }

  /** The order `compareTo` induces is a total preorder, as `PriorityQueue` needs. */
  lemma CompareToIsTotalPreorder(a: Tree, b: Tree, c: Tree)
    requires a.Node? && b.Node? && c.Node?
    ensures CompareTo(a, b) == -CompareTo(b, a)
    ensures CompareTo(a, b) <= 0 && CompareTo(b, c) <= 0 ==> CompareTo(a, c) <= 0
  {
  }

  function SetWordCount(n: Tree, wordCount: nat): (r: Tree)
    requires n.Node?
    ensures r.Node? && r.wordCount == wordCount
    ensures r.word == n.word && r.left == n.left && r.right == n.right
  {
    n.(wordCount := wordCount)
  }

  function SetLeft(n: Tree, left: Tree): (r: Tree)
    requires n.Node?
    ensures r.Node? && r.left == left
    ensures r.wordCount == n.wordCount && r.word == n.word && r.right == n.right
  {
    n.(left := left)
  }

  function SetRight(n: Tree, right: Tree): (r: Tree)
    requires n.Node?
    ensures r.Node? && r.right == right
    ensures r.wordCount == n.wordCount && r.word == n.word && r.left == n.left
  {
    n.(right := right)
  }

  predicate IsLeaf(t: Tree) {
    t.Node? && t.left == Null && t.right == Null
  }

  /**
   * A tree the greedy merge can produce: every node has zero or two
   * children; a leaf carries its word; an internal node carries none, its
   * count is the sum of its children's, and its left child's count is at
   * most its right child's.
   */
  predicate IsMergeTree(t: Tree) {
    match t
    case Null => false
    case Node(count, word, left, right) =>
      if left == Null && right == Null then word.Some?
      else
        && left.Node? && right.Node?
        && word.None?
        && count == left.wordCount + right.wordCount
        && left.wordCount <= right.wordCount
        && IsMergeTree(left) && IsMergeTree(right)
  }

  /** The (word, count) entries of the labelled leaves, left to right. */
  function Leaves(t: Tree): seq<Entry> {
    match t
    case Null => []
    case Node(count, word, left, right) =>
      if left == Null && right == Null then (if word.Some? then [(word.value, count)] else [])
      else Leaves(left) + Leaves(right)
  }

  function LeafCount(t: Tree): nat {
    match t
    case Null => 0
    case Node(_, _, left, right) =>
      if left == Null && right == Null then 1 else LeafCount(left) + LeafCount(right)
  }

  function InternalCount(t: Tree): nat {
    match t
    case Null => 0
    case Node(_, _, left, right) =>
      if left == Null && right == Null then 0 else 1 + InternalCount(left) + InternalCount(right)
  }

  /** Every node's count is at most `bound`. */
  predicate CountsAtMost(t: Tree, bound: nat) {
    match t
    case Null => true
    case Node(count, _, left, right) => count <= bound && CountsAtMost(left, bound) && CountsAtMost(right, bound)
  }

  /**
   * In a merge tree every leaf is labelled, there is one more leaf than
   * internal node, and the root's count is the sum of the leaf counts.
   */
  lemma {:induction false} MergeTreeShape(t: Tree)
    requires IsMergeTree(t)
    ensures LeafCount(t) == |Leaves(t)| == InternalCount(t) + 1
    ensures t.wordCount == SumOf(Leaves(t))
  {
    if !IsLeaf(t) {
      MergeTreeShape(t.left);
      MergeTreeShape(t.right);
      SumOfAppend(Leaves(t.left), Leaves(t.right));
    } else {
      assert Leaves(t)[..0] == [];
    }
  }

  lemma {:induction false} CountsAtMostWeaken(t: Tree, a: nat, b: nat)
    requires CountsAtMost(t, a) && a <= b
    ensures CountsAtMost(t, b)
  {
    if t.Node? {
      CountsAtMostWeaken(t.left, a, b);
      CountsAtMostWeaken(t.right, a, b);
    }
  }

  /** No node of a merge tree counts more than its root. */
  lemma {:induction false} RootCountIsLargest(t: Tree)
    requires IsMergeTree(t)
    ensures CountsAtMost(t, t.wordCount)
  {
    if !IsLeaf(t) {
      RootCountIsLargest(t.left);
      RootCountIsLargest(t.right);
      CountsAtMostWeaken(t.left, t.left.wordCount, t.wordCount);
      CountsAtMostWeaken(t.right, t.right.wordCount, t.wordCount);
    }
  }

  /** Joining two merge trees, the lesser on the left, gives a merge tree with both sets of leaves. */
  lemma JoinIsMergeTree(left: Tree, right: Tree)
    requires IsMergeTree(left) && IsMergeTree(right)
    requires left.wordCount <= right.wordCount
    ensures IsMergeTree(NewParent(left.wordCount + right.wordCount, left, right))
    ensures Leaves(NewParent(left.wordCount + right.wordCount, left, right)) == Leaves(left) + Leaves(right)
  {
  }

  /** A merge tree with a single labelled leaf is that leaf. */
  lemma SingleLeafTree(t: Tree, word: string, count: nat)
    requires IsMergeTree(t)
    requires Leaves(t) == [(word, count)]
    ensures t == NewLeaf(count, word)
  {
    if !IsLeaf(t) {
      MergeTreeShape(t.left);
      MergeTreeShape(t.right);
    }
  }
}

=== FILE: task2.dfy ===
/**
 * `Task2`: counting the tokens of a text, building the merge tree from the
 * counts, and the label width the driver hands to the printer.
 */
module Task2 {
  import opened Wrappers
  import opened Decimal
  import opened Counts
  import opened Nodes
  import opened MergeQueue

  /**
   * `readWordCounts` over the tokens the scanner yields: a first occurrence
   * maps the token to 1, each further one adds 1.
   */
  function ReadWordCounts(tokens: seq<string>): (counts: map<string, nat>)
    ensures forall w :: w in counts <==> w in tokens
    ensures forall w :: w in counts ==> counts[w] == multiset(tokens)[w]
    decreases |tokens|
  {
    if tokens == [] then map[]
    else
      var counts := ReadWordCounts(tokens[..|tokens| - 1]);
      var word := tokens[|tokens| - 1];
      assert tokens == tokens[..|tokens| - 1] + [word];
      counts[word := if word in counts then counts[word] + 1 else 1]
  }

  /** Every token is counted once: the counts add up to the number of tokens. */
  lemma {:induction false} TotalIsTokenCount(tokens: seq<string>)
    ensures Total(ReadWordCounts(tokens)) == |tokens|
    decreases |tokens|
  {
    if tokens != [] {
      var front := tokens[..|tokens| - 1];
      var word := tokens[|tokens| - 1];
      var before := ReadWordCounts(front);
      assert ReadWordCounts(tokens) == before[word := if word in before then before[word] + 1 else 1];
      TotalIsTokenCount(front);
      TotalIncrement(before, word);
    }
  }

  /**
   * What `constructTree` leaves in `root`: nothing for an empty mapping,
   * otherwise a merge tree whose leaves are exactly the mapping's entries.
   */
  predicate BuiltFrom(root: Tree, wordCounts: map<string, nat>) {
    && (root == Null || IsMergeTree(root))
    && multiset(Leaves(root)) == Entries(wordCounts)
  }

  /**
   * Consequences of the builder's result: an empty mapping and only it
   * gives a null root; the root counts the total; one leaf per word and one
   * internal node fewer; a single word gives its own leaf as the root.
   */
  lemma BuiltFromProperties(root: Tree, wordCounts: map<string, nat>)
    requires BuiltFrom(root, wordCounts)
    ensures wordCounts == map[] <==> root == Null
    ensures root != Null ==> root.wordCount == Total(wordCounts)
    ensures root != Null ==> LeafCount(root) == |wordCounts| && InternalCount(root) == |wordCounts| - 1
    ensures forall w :: w in wordCounts ==> multiset(Leaves(root))[(w, wordCounts[w])] == 1
    ensures forall w :: w in wordCounts && |wordCounts| == 1 ==> root == NewLeaf(wordCounts[w], w)
  {
    EntriesSize(wordCounts);
    forall w | w in wordCounts
      ensures multiset(Leaves(root))[(w, wordCounts[w])] == 1
    {
      EntriesMembership(wordCounts, (w, wordCounts[w]));
    }
    if root != Null {
      MergeTreeShape(root);
      SumOfEntries(Leaves(root), wordCounts);
      if |wordCounts| == 1 {
        var w :| w in wordCounts;
        var e := Leaves(root)[0];
        assert e in multiset(Leaves(root));
        EntriesMembership(wordCounts, e);
        assert Leaves(root) == [(w, wordCounts[w])];
        SingleLeafTree(root, w, wordCounts[w]);
      }
    }
  }

  /** The first half of `constructTree`: one leaf per word offered to an empty queue. */
  method OfferLeaves(wordCounts: map<string, nat>) returns (queue: seq<Tree>)
    ensures PendingOk(queue)
    ensures |queue| == |wordCounts|
    ensures forall t :: t in queue ==> IsLeaf(t)
    ensures multiset(QueueLeaves(queue)) == Entries(wordCounts)
  {
    queue := [];
    var pending := wordCounts;
    while pending != map[]
      invariant NoNulls(queue)
      invariant forall t :: t in queue ==> IsMergeTree(t) && IsLeaf(t)
      invariant |queue| + |pending| == |wordCounts|
      invariant multiset(QueueLeaves(queue)) + Entries(pending) == Entries(wordCounts)
      decreases |pending|
    {
      var word :| word in pending;
      var leaf := NewLeaf(pending[word], word);
      Offer(queue, leaf);
      EntriesRemove(pending, word);
      MapRemoveSize(pending, word);
      queue := queue + [leaf];
      pending := pending - {word};
    }
  }

  /** The pending trees are all merge trees, and the queue holds no `null`. */
  predicate PendingOk(queue: seq<Tree>) {
    NoNulls(queue) && forall t :: t in queue ==> IsMergeTree(t)
  }

  /**
   * One round of the loop of `constructTree`: the least node is polled; a
   * second poll either finds nothing, and the first node is the root, or a
   * node of no smaller count, and their parent goes back into the queue,
   * which has shrunk by one.
   */
  method Round(queue: seq<Tree>) returns (next: seq<Tree>, root: Tree)
    requires queue != [] && PendingOk(queue)
    ensures PendingOk(next)
    ensures root != Null ==> next == [] && IsMergeTree(root)
    ensures root == Null ==> |next| == |queue| - 1
    ensures |queue| == 1 <==> root != Null
    ensures |queue| == 1 ==> root == queue[0]
    ensures root == Null ==> MergesTwoLeast(queue, next)
    ensures multiset(QueueLeaves(next)) + multiset(Leaves(root)) == multiset(QueueLeaves(queue))
  {
    var node1, rest1 := Poll(queue);
    next, root := SecondPoll(node1, rest1);
    if root == Null {
      MergesTwoLeastBy(queue, node1, rest1, next);
    } else {
      SingleMember(queue, node1);
    }
  }

  /**
   * The rest of a round, once the least node `node1` has been polled and
   * `rest` is what remains in the queue.
   */
  method SecondPoll(node1: Tree, rest: seq<Tree>) returns (next: seq<Tree>, root: Tree)
    requires IsMergeTree(node1) && PendingOk(rest)
    requires forall t :: t in rest ==> t.Node? && node1.wordCount <= t.wordCount
    ensures PendingOk(next)
    ensures root != Null ==> next == [] && IsMergeTree(root)
    ensures root == Null ==> |next| == |rest|
    ensures rest == [] ==> root == node1 && next == []
    ensures rest != [] ==> root == Null && MergesLeast(node1, rest, next)
    ensures rest != [] ==> multiset(QueueLeaves(next)) == multiset(QueueLeaves(rest)) + multiset(Leaves(node1))
  {
    var node2, rest2 := Poll(rest);
    if node2 != Null {
      assert node2 in rest;
      next := OfferParent(rest2, node1, node2);
      root := Null;
      assert multiset(QueueLeaves(rest2)) + multiset(Leaves(node2)) == multiset(QueueLeaves(rest));
      MergesLeastBy(node1, node2, rest, rest2);
    } else {
      next, root := rest2, node1;
    }
  }

  /** The merging branch: the parent of the two polled nodes is offered back. */
  method OfferParent(rest: seq<Tree>, node1: Tree, node2: Tree) returns (next: seq<Tree>)
    requires PendingOk(rest) && IsMergeTree(node1) && IsMergeTree(node2)
    requires node1.wordCount <= node2.wordCount
    ensures PendingOk(next) && |next| == |rest| + 1
    ensures next == rest + [NewParent(node1.wordCount + node2.wordCount, node1, node2)]
    ensures multiset(QueueLeaves(next)) == multiset(QueueLeaves(rest)) + multiset(Leaves(node1)) + multiset(Leaves(node2))
  {
    JoinIsMergeTree(node1, node2);
    var parent := NewParent(node1.wordCount + node2.wordCount, node1, node2);
    Offer(rest, parent);
    next := rest + [parent];
  }

  /**
   * `next` is what a merging second poll leaves: some least node `node2`
   * of `rest` is taken out, and the parent of `node1` and `node2`, with
   * their counts summed, is offered in its place.
   */
  ghost predicate MergesLeast(node1: Tree, rest: seq<Tree>, next: seq<Tree>) {
    exists node2: Tree, rest2: seq<Tree> ::
      node1.Node? && node2.Node? && multiset(rest2) + multiset{node2} == multiset(rest)
      && (forall t :: t in rest ==> t.Node? && node2.wordCount <= t.wordCount)
      && next == rest2 + [NewParent(node1.wordCount + node2.wordCount, node1, node2)]
  }

  /** `node2`, a least node of `rest`, and what is left after it witness `MergesLeast`. */
  lemma MergesLeastBy(node1: Tree, node2: Tree, rest: seq<Tree>, rest2: seq<Tree>)
    requires node1.Node? && node2.Node? && multiset(rest2) + multiset{node2} == multiset(rest)
    requires forall t :: t in rest ==> t.Node? && node2.wordCount <= t.wordCount
    ensures MergesLeast(node1, rest, rest2 + [NewParent(node1.wordCount + node2.wordCount, node1, node2)])
  {
  }

  /**
   * `next` is what a merging round leaves: some least node `node1` of
   * `queue` is taken out, and then `MergesLeast` merges it with a least
   * node of what is left. So the two nodes merged are two of least count.
   */
  ghost predicate MergesTwoLeast(queue: seq<Tree>, next: seq<Tree>) {
    exists node1: Tree, rest1: seq<Tree> ::
      node1.Node? && multiset(rest1) + multiset{node1} == multiset(queue)
      && (forall t :: t in queue ==> t.Node? && node1.wordCount <= t.wordCount)
      && MergesLeast(node1, rest1, next)
  }

  /** A least node of `queue`, and what is left after it, witness `MergesTwoLeast`. */
  lemma MergesTwoLeastBy(queue: seq<Tree>, node1: Tree, rest1: seq<Tree>, next: seq<Tree>)
    requires node1.Node? && multiset(rest1) + multiset{node1} == multiset(queue)
    requires forall t :: t in queue ==> t.Node? && node1.wordCount <= t.wordCount
    requires MergesLeast(node1, rest1, next)
    ensures MergesTwoLeast(queue, next)
  {
  }

  /** The one member of a one-node queue is its first. */
  lemma SingleMember(q: seq<Tree>, t: Tree)
    requires |q| == 1 && t in q
    ensures t == q[0]
  {
  }

  /** The loop of `constructTree`, run until the queue is empty. */
  method MergeDown(queue0: seq<Tree>) returns (root: Tree)
    requires PendingOk(queue0)
    ensures root == Null || IsMergeTree(root)
    ensures multiset(Leaves(root)) == multiset(QueueLeaves(queue0))
  {
    var queue := queue0;
    root := Null;
    while queue != []
      invariant PendingOk(queue)
      invariant root != Null ==> queue == [] && IsMergeTree(root)
      invariant multiset(QueueLeaves(queue)) + multiset(Leaves(root)) == multiset(QueueLeaves(queue0))
      decreases |queue|
    {
      queue, root := Round(queue);
    }
  }

  /**
   * `constructTree`: the word leaves go into the queue, then the queue is
   * merged down to the root.
   */
  method ConstructTree(wordCounts: map<string, nat>) returns (root: Tree)
    ensures BuiltFrom(root, wordCounts)
    ensures wordCounts == map[] <==> root == Null
    ensures root != Null ==> root.wordCount == Total(wordCounts)
    ensures root != Null ==> LeafCount(root) == |wordCounts| && InternalCount(root) == |wordCounts| - 1
    ensures forall w :: w in wordCounts && |wordCounts| == 1 ==> root == NewLeaf(wordCounts[w], w)
  {
    var queue := OfferLeaves(wordCounts);
    root := MergeDown(queue);
    BuiltFromProperties(root, wordCounts);
  }

  /** The largest count of the mapping, or 0 when it is empty (`reduce(Long::max).orElse(0)`). */
  ghost function MaxWordCount(wordCounts: map<string, nat>): (m: nat)
    ensures wordCounts == map[] ==> m == 0
    ensures wordCounts != map[] ==> exists w :: w in wordCounts && wordCounts[w] == m
    ensures forall w :: w in wordCounts ==> wordCounts[w] <= m
    decreases |wordCounts|
  {
    if wordCounts == map[] then 0
    else
      var w :| w in wordCounts;
      MapRemoveSize(wordCounts, w);
      var rest := MaxWordCount(wordCounts - {w});
      assert forall k :: k in wordCounts && k != w ==> k in wordCounts - {w};
      if wordCounts[w] >= rest then wordCounts[w] else rest
  }

  /**
   * The width `main` passes to the printer: the number of decimal digits of
   * the largest word count, or of 0 (one digit) for an empty mapping.
   */
  ghost function MaxCountWidth(wordCounts: map<string, nat>): (w: nat)
    ensures w >= 1
    ensures wordCounts == map[] ==> w == 1
    ensures forall k :: k in wordCounts ==> |DecimalString(wordCounts[k])| <= w
    ensures wordCounts != map[] ==> exists k :: k in wordCounts && |DecimalString(wordCounts[k])| == w
  {
    var m := MaxWordCount(wordCounts);
    forall k | k in wordCounts
      ensures |DecimalString(wordCounts[k])| <= |DecimalString(m)|
    {
      DecimalLengthMonotone(wordCounts[k], m);
    }
    |DecimalString(m)|
  }

  /**
   * The width `main` computes covers the word counts but not the sums the
   * merge creates: ten or more distinct tokens give width 1 while the root
   * counts every token, so its count has at least two digits.
   */
  lemma MaxCountWidthMissesRoot(tokens: seq<string>, root: Tree)
    requires |tokens| >= 10
    requires Distinct(tokens)
    requires BuiltFrom(root, ReadWordCounts(tokens))
    ensures MaxCountWidth(ReadWordCounts(tokens)) == 1
    ensures root.Node? && root.wordCount == |tokens|
    ensures |DecimalString(root.wordCount)| > MaxCountWidth(ReadWordCounts(tokens))
    ensures |tokens| >= 100 ==> |DecimalString(root.wordCount)| >= 3
  {
    var counts := ReadWordCounts(tokens);
    DistinctTokensCountOnce(tokens);
    assert tokens[0] in counts;
    assert MaxWordCount(counts) == 1;
    BuiltFromProperties(root, counts);
    TotalIsTokenCount(tokens);
    if |tokens| >= 100 {
      DecimalLengthMonotone(100, |tokens|);
      assert |DecimalString(100)| == 3;
    } else {
      DecimalLengthMonotone(10, |tokens|);
      assert |DecimalString(10)| == 2;
    }
  }

  /** No token occurs twice. */
  predicate Distinct(tokens: seq<string>) {
    forall i, j :: 0 <= i < j < |tokens| ==> tokens[i] != tokens[j]
  }

  lemma {:induction false} DistinctOccurOnce(tokens: seq<string>)
    requires Distinct(tokens)
    ensures forall w :: multiset(tokens)[w] <= 1
  {
    if tokens != [] {
      var front, last := tokens[..|tokens| - 1], tokens[|tokens| - 1];
      assert Distinct(front) by {
        forall i, j | 0 <= i < j < |front|
          ensures front[i] != front[j]
        {
          assert front[i] == tokens[i] && front[j] == tokens[j];
        }
      }
      DistinctOccurOnce(front);
      assert tokens == front + [last];
      assert last !in front by {
        forall k | 0 <= k < |front|
          ensures front[k] != last
        {
          assert front[k] == tokens[k];
        }
      }
    }
  }

  lemma DistinctTokensCountOnce(tokens: seq<string>)
    requires Distinct(tokens)
    ensures forall w :: w in ReadWordCounts(tokens) ==> ReadWordCounts(tokens)[w] == 1
  {
    DistinctOccurOnce(tokens);
  }

  /**
   * The width the printer needs: the digits of the root's count, the
   * largest count in a merge tree (or of 0, one digit, for an empty tree).
   */
  function TreeWidth(root: Tree): (w: nat)
    requires root == Null || IsMergeTree(root)
    ensures w >= 1
    ensures root.Node? ==> CountsAtMostDigits(root, w)
  {
    if root == Null then |DecimalString(0)|
    else
      RootCountIsLargest(root);
      DigitsBound(root, root.wordCount);
      |DecimalString(root.wordCount)|
  }

  /** Every count in the tree has at most `w` digits. */
  predicate CountsAtMostDigits(t: Tree, w: nat) {
    match t
    case Null => true
    case Node(count, _, left, right) =>
      |DecimalString(count)| <= w && CountsAtMostDigits(left, w) && CountsAtMostDigits(right, w)
  }

  lemma {:induction false} DigitsBound(t: Tree, bound: nat)
    requires CountsAtMost(t, bound)
    ensures CountsAtMostDigits(t, |DecimalString(bound)|)
  {
    if t.Node? {
      DecimalLengthMonotone(t.wordCount, bound);
      DigitsBound(t.left, bound);
      DigitsBound(t.right, bound);
    }
  }
}

=== FILE: tree_columns.dfy ===
/**
 * Where each slot's field sits on its line, and why the printed tree lines
 * up: with an odd field width, every parent's middle column lies exactly
 * halfway between its two children's middle columns.
 */
module TreeColumns {
  import opened Decimal
  import opened Nodes
  import opened TreePrinter

  lemma SlicePrefix<T>(c: seq<T>, r: seq<T>)
    ensures (c + r)[..|c|] == c
  {
  }

  lemma SliceShift<T>(h: seq<T>, r: seq<T>, k: nat, n: nat)
    requires k + n <= |r|
    ensures (h + r)[|h| + k..|h| + k + n] == r[k..k + n]
  {
  }

  /** `i` runs of `span` columns, laid end to end. */
  function Offset(i: nat, span: nat): (columns: nat)
    ensures i > 0 ==> columns >= span
  {
    if i == 0 then 0 else Offset(i - 1, span) + span
  }

  /** Twice as many runs of half the width reach the same column. */
  lemma {:induction false} OffsetDouble(i: nat, half: nat)
    ensures Offset(2 * i, half) == Offset(i, 2 * half)
  {
    if i > 0 {
      OffsetDouble(i - 1, half);
      assert 2 * i - 1 - 1 == 2 * (i - 1);
    }
  }

  /** Every field is exactly `w` wide. */
  predicate AllWidth(fields: seq<string>, w: nat) {
    fields == [] || (|fields[0]| == w && AllWidth(fields[1..], w))
  }

  /** Fields laid out in a row, each followed by `separator` blanks. */
  function Join(fields: seq<string>, separator: nat): string {
    if fields == [] then [] else fields[0] + Repeat(' ', separator) + Join(fields[1..], separator)
  }

  /**
   * In a row of fields all `w` wide, field `i` occupies the `w` columns
   * that follow the `i` fields before it, each `w + separator` wide.
   */
  lemma {:induction false} JoinColumns(fields: seq<string>, w: nat, separator: nat, i: nat, start: nat)
    requires AllWidth(fields, w) && i < |fields| && start == Offset(i, w + separator)
    ensures |fields[i]| == w
    ensures start + w <= |Join(fields, separator)|
    ensures Join(fields, separator)[start..start + w] == fields[i]
  {
    var field, gap, rest := fields[0], Repeat(' ', separator), Join(fields[1..], separator);
    assert Join(fields, separator) == field + (gap + rest);
    if i == 0 {
      SlicePrefix(field, gap + rest);
    } else {
      JoinColumns(fields[1..], w, separator, i - 1, start - (w + separator));
      assert fields[1..][i - 1] == fields[i];
      assert field + (gap + rest) == (field + gap) + rest;
      SliceShift(field + gap, rest, start - (w + separator), w);
    }
  }

  /** The field of every slot, in order. */
  function Fields(slots: seq<Tree>, w: nat): (fields: seq<string>)
    requires SlotsPrintable(slots, w)
    ensures |fields| == |slots|
  {
    if slots == [] then [] else [Cell(slots[0], w)] + Fields(slots[1..], w)
  }

  /** `LevelCells` is the row of the slots' fields. */
  lemma {:induction false} LevelCellsIsJoin(slots: seq<Tree>, w: nat, separator: nat)
    requires SlotsPrintable(slots, w)
    ensures LevelCells(slots, w, separator) == Join(Fields(slots, w), separator)
  {
    if slots != [] {
      LevelCellsIsJoin(slots[1..], w, separator);
      assert Fields(slots, w)[1..] == Fields(slots[1..], w);
    }
  }

  /** Exact slots give fields all `w` wide. */
  lemma {:induction false} FieldsExact(slots: seq<Tree>, w: nat)
    requires SlotsPrintable(slots, w) && SlotsExact(slots, w)
    ensures AllWidth(Fields(slots, w), w)
  {
    if slots != [] {
      FieldsExact(slots[1..], w);
      CellLength(slots[0], w);
      assert Fields(slots, w)[1..] == Fields(slots[1..], w);
    }
  }

  lemma {:induction false} FieldsAt(slots: seq<Tree>, w: nat, i: nat)
    requires SlotsPrintable(slots, w) && i < |slots|
    ensures TreePrintable(slots[i], w) && Fields(slots, w)[i] == Cell(slots[i], w)
  {
    if i > 0 {
      FieldsAt(slots[1..], w, i - 1);
      assert slots[1..][i - 1] == slots[i];
    }
  }

  /**
   * With exact fields, slot `i` occupies the `w` columns of `LevelCells`
   * that follow the `i` slots before it, each `w + separator` wide.
   */
  lemma LevelCellsColumns(slots: seq<Tree>, w: nat, separator: nat, i: nat, start: nat)
    requires SlotsPrintable(slots, w) && SlotsExact(slots, w)
    requires i < |slots| && start == Offset(i, w + separator)
    ensures TreePrintable(slots[i], w) && |Cell(slots[i], w)| == w
    ensures start + w <= |LevelCells(slots, w, separator)|
    ensures LevelCells(slots, w, separator)[start..start + w] == Cell(slots[i], w)
  {
    LevelCellsIsJoin(slots, w, separator);
    FieldsExact(slots, w);
    FieldsAt(slots, w, i);
    JoinColumns(Fields(slots, w), w, separator, i, start);
  }

  /** `printLastLevel` is the row of fields, each followed by one blank. */
  lemma {:induction false} LastLevelIsCells(slots: seq<Tree>, w: nat)
    requires SlotsPrintable(slots, w)
    ensures PrintLastLevel(slots, w) == LevelCells(slots, w, 1)
  {
    if slots != [] {
      LastLevelIsCells(slots[1..], w);
      if slots[0] == Null {
        assert Repeat(' ', w + 1) == Repeat(' ', w) + Repeat(' ', 1);
      } else {
        assert Repeat(' ', 1) == " ";
      }
    }
  }

  /** Equal runs of blanks around a piece leave the piece's middle in the middle. */
  lemma PaddedMiddle(s: string, piece: string, pad: nat)
    requires s == Repeat(' ', pad) + piece + Repeat(' ', pad) && |s| % 2 == 1
    ensures |s| / 2 == pad + |piece| / 2 && s[|s| / 2] == piece[|piece| / 2]
  {
    assert s[|s| / 2] == (Repeat(' ', pad) + piece)[|s| / 2];
  }

  /**
   * An exact field of a node has the count's middle digit in its middle
   * column; a `null` field has a blank there.
   */
  lemma CellMiddle(slot: Tree, w: nat)
    requires w % 2 == 1 && TreePrintable(slot, w) && CellExact(slot, w)
    ensures |Cell(slot, w)| == w
    ensures slot == Null ==> Cell(slot, w)[w / 2] == ' '
    ensures slot.Node? ==>
      var digits := DecimalString(slot.wordCount);
      Cell(slot, w)[w / 2] == digits[|digits| / 2]
  {
    CellLength(slot, w);
    if slot.Node? {
      PrintNodeValueCentred(slot, w);
      var digits := DecimalString(slot.wordCount);
      var s := Cell(slot, w);
      PaddedMiddle(s, digits, (|s| - |digits|) / 2);
    }
  }

  /** The first column of slot `i`'s field on level `level`. */
  function SlotStart(height: nat, level: nat, w: nat, i: nat): nat
    requires 1 <= level <= height
  {
    if level < height then LeadingPad(height, level, w) + Offset(i, SubtreeWidth(height, level, w))
    else Offset(i, w + 1)
  }

  /** The middle column of slot `i`'s field on level `level`. */
  function SlotCentre(height: nat, level: nat, w: nat, i: nat): nat
    requires 1 <= level <= height
  {
    SlotStart(height, level, w, i) + w / 2
  }

  /**
   * A parent's middle column is exactly halfway between its children's,
   * on every level, when the field width is odd.
   */
  lemma CentresAlign(height: nat, level: nat, w: nat, i: nat)
    requires 1 <= level < height && w % 2 == 1
    ensures 2 * SlotCentre(height, level, w, i)
      == SlotCentre(height, level + 1, w, 2 * i) + SlotCentre(height, level + 1, w, 2 * i + 1)
  {
    var h := w / 2;
    assert 2 * h + 1 == w;
    var below := SubtreeWidth(height, level + 1, w);
    var o := Offset(2 * i, below);
    assert SubtreeWidth(height, level, w) == 2 * below;
    OffsetDouble(i, below);
    assert SlotCentre(height, level, w, i) == (below - h - 1) + o + h;
    assert Offset(2 * i + 1, below) == o + below;
    if level + 1 < height {
      var half := SubtreeWidth(height, level + 2, w);
      assert below == 2 * half;
      assert SlotCentre(height, level + 1, w, 2 * i) == (half - h - 1) + o + h;
      assert SlotCentre(height, level + 1, w, 2 * i + 1) == (half - h - 1) + o + below + h;
    } else {
      assert below == w + 1;
      assert SlotCentre(height, level + 1, w, 2 * i) == o + h;
      assert SlotCentre(height, level + 1, w, 2 * i + 1) == o + below + h;
    }
  }

}

=== FILE: tree_layout.dfy ===
/**
 * What the printer's output looks like as a whole: how many lines it has,
 * and which level of the tree each line shows.
 */
module TreeLayout {
  import opened Nodes
  import opened TreePrinter
  import opened LineBreaks

  /** The greatest height among the slots, 0 when all are `null`. */
  function SlotsHeight(slots: seq<Tree>): nat {
    if slots == [] then 0 else Max(Height(slots[0]), SlotsHeight(slots[1..]))
  }

  lemma {:induction false} SlotsHeightBounds(slots: seq<Tree>)
    ensures forall i :: 0 <= i < |slots| ==> Height(slots[i]) <= SlotsHeight(slots)
    ensures slots != [] ==> exists i :: 0 <= i < |slots| && Height(slots[i]) == SlotsHeight(slots)
  {
    if slots != [] {
      SlotsHeightBounds(slots[1..]);
      if Height(slots[0]) < SlotsHeight(slots[1..]) {
        var i :| 0 <= i < |slots[1..]| && Height(slots[1..][i]) == SlotsHeight(slots[1..]);
        assert Height(slots[i + 1]) == SlotsHeight(slots);
      }
    }
  }

  /** A level is empty exactly when no slot has any height. */
  lemma LevelEmptyIffNoHeight(slots: seq<Tree>)
    ensures IsLevelEmpty(slots) <==> SlotsHeight(slots) == 0
  {
    LevelEmptyAllNull(slots);
    SlotsHeightBounds(slots);
  }

  /** Going one level down lowers the greatest height by one. */
  lemma {:induction false} NextLevelHeight(slots: seq<Tree>)
    ensures SlotsHeight(NextLevel(slots)) == if SlotsHeight(slots) == 0 then 0 else SlotsHeight(slots) - 1
  {
    if slots != [] {
      NextLevelHeight(slots[1..]);
      var next := NextLevel(slots);
      var rest := NextLevel(slots[1..]);
      assert next[1..][1..] == rest;
      assert SlotsHeight(next) == Max(Height(next[0]), Max(Height(next[1]), SlotsHeight(rest)));
    }
  }

  /** The slots of level `k` (the root's level is 1), `null` placeholders included. */
  function Level(root: Tree, k: nat): (slots: seq<Tree>)
    requires k >= 1
    ensures |slots| == Pow2(k - 1)
    ensures forall w {:trigger SlotsPrintable(slots, w)} :: TreePrintable(root, w) ==> SlotsPrintable(slots, w)
  {
    if k == 1 then [root]
    else
      var above := Level(root, k - 1);
      forall w | SlotsPrintable(above, w)
        ensures SlotsPrintable(NextLevel(above), w)
      {
        NextLevelPrintable(above, w);
      }
      NextLevel(above)
  }

  lemma {:induction false} LevelHeight(root: Tree, k: nat)
    requires 1 <= k <= Height(root) + 1
    ensures SlotsHeight(Level(root, k)) == Height(root) - (k - 1)
  {
    if k == 1 {
      assert SlotsHeight([root]) == Max(Height(root), SlotsHeight([]));
    } else {
      LevelHeight(root, k - 1);
      NextLevelHeight(Level(root, k - 1));
    }
  }

  /** Level `k` holds a node exactly when `k` is at most the height. */
  lemma LevelEmptyBeyondHeight(root: Tree, k: nat)
    requires 1 <= k <= Height(root) + 1
    ensures IsLevelEmpty(Level(root, k)) <==> k == Height(root) + 1
  {
    LevelHeight(root, k);
    LevelEmptyIffNoHeight(Level(root, k));
  }

  /**
   * The height is the number of levels holding a node: every level down to
   * the height holds one, and the level below the height is empty.
   */
  lemma HeightCountsLevels(root: Tree)
    ensures forall k :: 1 <= k <= Height(root) ==> !IsLevelEmpty(Level(root, k))
    ensures IsLevelEmpty(Level(root, Height(root) + 1))
  {
    forall k | 1 <= k <= Height(root) + 1
      ensures IsLevelEmpty(Level(root, k)) <==> k == Height(root) + 1
    {
      LevelEmptyBeyondHeight(root, k);
    }
  }

  /**
   * The interior lines printed from `slots`, on level `level`, down to level
   * `height - 1`: each level's line and its line break.
   */
  function InteriorLines(slots: seq<Tree>, level: nat, height: nat, w: nat): string
    requires 1 <= level && SlotsPrintable(slots, w)
    decreases height - level
  {
    if level < height then
      NextLevelPrintable(slots, w);
      PrintLevel(slots, level, height, w) + "\n" + InteriorLines(NextLevel(slots), level + 1, height, w)
    else ""
  }

  /** The line of the deepest level, reached from `slots` on level `level`. */
  function DeepestLine(slots: seq<Tree>, level: nat, height: nat, w: nat): string
    requires 1 <= level && SlotsPrintable(slots, w)
    decreases height - level
  {
    if level < height then
      NextLevelPrintable(slots, w);
      DeepestLine(NextLevel(slots), level + 1, height, w)
    else PrintLastLevel(slots, w)
  }

  lemma {:induction false} InteriorLinesBreaks(slots: seq<Tree>, level: nat, height: nat, w: nat)
    requires 1 <= level <= height && SlotsPrintable(slots, w)
    ensures Breaks(InteriorLines(slots, level, height, w)) == height - level
    decreases height - level, 1
  {
    if level < height {
      InteriorLineAbove(slots, level, height, w);
    } else {
      assert InteriorLines(slots, level, height, w) == [];
    }
  }

  /** One more interior line adds one line break to those below it. */
  lemma {:induction false} InteriorLineAbove(slots: seq<Tree>, level: nat, height: nat, w: nat)
    requires 1 <= level < height && SlotsPrintable(slots, w)
    ensures Breaks(InteriorLines(slots, level, height, w)) == height - level
    decreases height - level, 0
  {
    NextLevelPrintable(slots, w);
    var line := PrintLevel(slots, level, height, w);
    var rest := InteriorLines(NextLevel(slots), level + 1, height, w);
    InteriorLinesBreaks(NextLevel(slots), level + 1, height, w);
    PrintLevelHasNoBreak(slots, level, height, w);
    LineAbove(line, rest, InteriorLines(slots, level, height, w), height - (level + 1));
  }

  lemma DeepestLineStep(slots: seq<Tree>, level: nat, height: nat, w: nat)
    requires 1 <= level < height && SlotsPrintable(slots, w)
    ensures SlotsPrintable(NextLevel(slots), w)
    ensures DeepestLine(slots, level, height, w) == DeepestLine(NextLevel(slots), level + 1, height, w)
  {
    NextLevelPrintable(slots, w);
  }

  lemma DeepestLineAtHeight(slots: seq<Tree>, level: nat, height: nat, w: nat)
    requires 1 <= level && height <= level && SlotsPrintable(slots, w)
    ensures DeepestLine(slots, level, height, w) == PrintLastLevel(slots, w)
  {
  }

  /** The deepest line shows the level numbered by the height. */
  lemma {:induction false} DeepestLineIsLastLevel(root: Tree, k: nat, height: nat, w: nat)
    requires 1 <= k <= height && TreePrintable(root, w)
    ensures DeepestLine(Level(root, k), k, height, w) == PrintLastLevel(Level(root, height), w)
    decreases height - k
  {
    if k < height {
      var here := Level(root, k);
      DeepestLineStep(here, k, height, w);
      assert Level(root, k + 1) == NextLevel(here);
      DeepestLineIsLastLevel(root, k + 1, height, w);
    } else {
      DeepestLineAtHeight(Level(root, k), k, height, w);
    }
  }

  /** What `printNodes` prints from `slots` is the interior lines and then the deepest line. */
  predicate PrintsLines(slots: seq<Tree>, level: nat, height: nat, w: nat) {
    && 1 <= level
    && SlotsPrintable(slots, w)
    && PrintNodes(slots, level, height, w) == InteriorLines(slots, level, height, w) + DeepestLine(slots, level, height, w)
  }

  /**
   * One level of `printNodes` above the deepest: when the next level holds
   * a node, this level's line and line break come first, then whatever the
   * next level prints.
   */
  lemma PrintNodesStep(slots: seq<Tree>, level: nat, height: nat, w: nat)
    requires 1 <= level < height && SlotsPrintable(slots, w)
    requires !IsLevelEmpty(NextLevel(slots)) && PrintsLines(NextLevel(slots), level + 1, height, w)
    ensures PrintsLines(slots, level, height, w)
  {
    var line := PrintLevel(slots, level, height, w);
    var rest := InteriorLines(NextLevel(slots), level + 1, height, w);
    var last := DeepestLine(NextLevel(slots), level + 1, height, w);
    assert line + "\n" + (rest + last) == (line + "\n" + rest) + last;
  }

  /** The level below one that reaches down to `height` is printable, not empty, and reaches there too. */
  lemma NextLevelReachesHeight(slots: seq<Tree>, level: nat, height: nat, w: nat)
    requires 1 <= level < height && SlotsPrintable(slots, w)
    requires SlotsHeight(slots) == height - level + 1
    ensures SlotsPrintable(NextLevel(slots), w)
    ensures SlotsHeight(NextLevel(slots)) == height - (level + 1) + 1
    ensures !IsLevelEmpty(NextLevel(slots))
  {
    NextLevelPrintable(slots, w);
    NextLevelHeight(slots);
    LevelEmptyIffNoHeight(NextLevel(slots));
  }

  /** On the deepest level `printNodes` prints that level alone. */
  lemma PrintNodesDeepest(slots: seq<Tree>, level: nat, height: nat, w: nat)
    requires 1 <= level && height <= level && SlotsPrintable(slots, w)
    ensures PrintsLines(slots, level, height, w)
  {
    assert InteriorLines(slots, level, height, w) == [];
  }

  /**
   * From a level whose slots reach exactly down to `height`, `printNodes`
   * prints the interior lines and then the deepest level, never stopping
   * early at an empty level.
   */
  lemma {:induction false} PrintNodesFromLevel(slots: seq<Tree>, level: nat, height: nat, w: nat)
    requires 1 <= level <= height && SlotsPrintable(slots, w)
    requires SlotsHeight(slots) == height - level + 1
    ensures PrintsLines(slots, level, height, w)
    decreases height - level, 1
  {
    if level < height {
      PrintNodesAboveDeepest(slots, level, height, w);
    } else {
      PrintNodesDeepest(slots, level, height, w);
    }
  }

  /** `PrintNodesFromLevel` above the deepest level: the level below first, then this line. */
  lemma {:induction false} PrintNodesAboveDeepest(slots: seq<Tree>, level: nat, height: nat, w: nat)
    requires 1 <= level < height && SlotsPrintable(slots, w)
    requires SlotsHeight(slots) == height - level + 1
    ensures PrintsLines(slots, level, height, w)
    decreases height - level, 0
  {
    NextLevelReachesHeight(slots, level, height, w);
    PrintNodesFromLevel(NextLevel(slots), level + 1, height, w);
    PrintNodesStep(slots, level, height, w);
  }

  /** The lines printed for a non-null tree, from its root level down. */
  lemma TreeLines(root: Tree, w: nat)
    requires root != Null && TreePrintable(root, w)
    ensures PrintNodes([root], 1, Height(root), w)
      == InteriorLines([root], 1, Height(root), w) + PrintLastLevel(Level(root, Height(root)), w)
  {
    LevelHeight(root, 1);
    PrintNodesFromLevel([root], 1, Height(root), w);
    DeepestLineIsLastLevel(root, 1, Height(root), w);
  }

  /** The lines of a non-null tree are separated by one line break fewer than its height. */
  lemma TreeLinesBreaks(root: Tree, w: nat)
    requires root != Null && TreePrintable(root, w)
    ensures Breaks(InteriorLines([root], 1, Height(root), w) + PrintLastLevel(Level(root, Height(root)), w))
      == Height(root) - 1
  {
    var last := PrintLastLevel(Level(root, Height(root)), w);
    InteriorLinesBreaks([root], 1, Height(root), w);
    PrintLastLevelLayout(Level(root, Height(root)), w);
    LayoutHasNoBreak(last);
    NoBreakCharCountsNone(last);
    BreaksAppend(InteriorLines([root], 1, Height(root), w), last);
  }

  /**
   * `print` of a tree of height H > 0 gives H - 1 interior lines, each
   * ended by a line break, then the deepest level with no line break; a
   * `null` root gives the `w + 1` blanks of one empty last-level slot.
   */
  lemma PrintShape(root: Tree, maxNodeWidth: nat)
    requires TreePrintable(root, NormalizeWidth(maxNodeWidth))
    ensures var w := NormalizeWidth(maxNodeWidth);
      root == Null ==> Print(root, maxNodeWidth) == Repeat(' ', w + 1)
    ensures var w := NormalizeWidth(maxNodeWidth);
      root != Null ==>
        && Print(root, maxNodeWidth) == InteriorLines([root], 1, Height(root), w) + PrintLastLevel(Level(root, Height(root)), w)
        && Breaks(Print(root, maxNodeWidth)) == Height(root) - 1
  {
    var w := NormalizeWidth(maxNodeWidth);
    if root != Null {
      TreeLines(root, w);
      TreeLinesBreaks(root, w);
    } else {
      assert [root][1..] == [];
      assert PrintLastLevel([root], w) == Repeat(' ', w + 1) + PrintLastLevel([], w);
      assert Repeat(' ', w + 1) + [] == Repeat(' ', w + 1);
    }
  }
}

=== FILE: tree_printer.dfy ===
/**
 * `TreePrinter`: renders a tree level by level as text. Each routine that
 * prints in the source returns here the string it would print.
 */
module TreePrinter {
  import opened Decimal
  import opened Nodes

  /** `maxNodeWidth` made odd, so that a field has a middle column. */
  function NormalizeWidth(maxNodeWidth: nat): (w: nat)
    ensures w % 2 == 1
    ensures w == maxNodeWidth || w == maxNodeWidth + 1
  {
    if maxNodeWidth % 2 == 0 then maxNodeWidth + 1 else maxNodeWidth
  }

  function Max(a: nat, b: nat): nat {
    if a >= b then a else b
  }

  /** `getTreeHeight`: 0 for `null`, one more than the taller child otherwise. */
  function Height(t: Tree): (h: nat)
    ensures h == 0 <==> t == Null
  {
    if t == Null then 0 else Max(Height(t.left), Height(t.right)) + 1
  }

  function Pow2(k: nat): (p: nat)
    ensures p >= 1
  {
    if k == 0 then 1 else 2 * Pow2(k - 1)
  }

  /** A character of a rendered line: a blank or a digit. */
  predicate IsLayoutChar(c: char) {
    c == ' ' || IsDigit(c)
  }

  predicate IsLayout(s: string) {
    forall i :: 0 <= i < |s| ==> IsLayoutChar(s[i])
  }

  lemma LayoutConcat(a: string, b: string)
    requires IsLayout(a) && IsLayout(b)
    ensures IsLayout(a + b)
  {
  }

  /** `repeat`, as called here: `count` copies of one character. */
  function Repeat(c: char, count: nat): (s: string)
    ensures |s| == count
    ensures forall i :: 0 <= i < |s| ==> s[i] == c
  {
    if count == 0 then [] else Repeat(c, count - 1) + [c]
  }

  /** Java's `long` division by 2, which truncates toward zero. */
  function JavaHalf(x: int): int {
    if x >= 0 then x / 2 else -((-x) / 2)
  }

  /**
   * A count can be printed in a field of width `w` without handing `repeat`
   * a negative count (which makes `new StringBuilder` throw): at most one
   * digit wider than the field.
   */
  predicate Printable(count: nat, w: nat) {
    |DecimalString(count)| <= w + 1
  }

  /** `Printable` is exactly the condition under which both halves of the left-over are non-negative. */
  lemma PrintableMeansNoNegativeHalf(count: nat, w: nat)
    ensures Printable(count, w) <==> JavaHalf(w - |DecimalString(count)|) >= 0
  {
  }

  /** Every count in the tree is `Printable`. */
  predicate TreePrintable(t: Tree, w: nat) {
    match t
    case Null => true
    case Node(count, _, left, right) => Printable(count, w) && TreePrintable(left, w) && TreePrintable(right, w)
  }

  predicate SlotsPrintable(slots: seq<Tree>, w: nat) {
    slots == [] || (TreePrintable(slots[0], w) && SlotsPrintable(slots[1..], w))
  }

  /** `printNodeValue`: the count between two equal runs of blanks. */
  function PrintNodeValue(node: Tree, w: nat): (s: string)
    requires node.Node? && Printable(node.wordCount, w)
    ensures |DecimalString(node.wordCount)| <= |s|
    ensures |DecimalString(node.wordCount)| <= w ==> |s| <= w
  {
    var digits := DecimalString(node.wordCount);
    var padding := w - |digits|;
    Repeat(' ', JavaHalf(padding)) + digits + Repeat(' ', JavaHalf(padding))
  }

  /**
   * Each run of blanks is half of what the field has left over, rounded
   * down, so the count sits in the middle. The field is filled exactly when
   * the left-over is even and is one short when it is odd; a count wider
   * than the field (by one digit) is printed bare.
   */
  lemma PrintNodeValueCentred(node: Tree, w: nat)
    requires node.Node? && Printable(node.wordCount, w)
    ensures var s, digits := PrintNodeValue(node, w), DecimalString(node.wordCount);
      && |s| >= |digits|
      && s == Repeat(' ', (|s| - |digits|) / 2) + digits + Repeat(' ', (|s| - |digits|) / 2)
    ensures var s, digits := PrintNodeValue(node, w), DecimalString(node.wordCount);
      |digits| <= w ==> |s| <= w && w <= |s| + 1
    ensures var s, digits := PrintNodeValue(node, w), DecimalString(node.wordCount);
      |digits| <= w ==> (|s| == w <==> (w - |digits|) % 2 == 0)
    ensures var s, digits := PrintNodeValue(node, w), DecimalString(node.wordCount);
      |digits| > w ==> s == digits
  {
    var digits := DecimalString(node.wordCount);
    if |digits| > w {
      assert JavaHalf(w - |digits|) == 0;
      assert Repeat(' ', 0) == [];
    }
  }

  /** A slot renders to exactly `w` columns: `null`, or a count whose left-over is even. */
  predicate CellExact(slot: Tree, w: nat) {
    slot.Node? ==> |DecimalString(slot.wordCount)| <= w && (w - |DecimalString(slot.wordCount)|) % 2 == 0
  }

  predicate SlotsExact(slots: seq<Tree>, w: nat) {
    slots == [] || (CellExact(slots[0], w) && SlotsExact(slots[1..], w))
  }

  /** The field of one slot on an interior level: its count, or `w` blanks for `null`. */
  function Cell(slot: Tree, w: nat): (s: string)
    requires TreePrintable(slot, w)
  {
    if slot.Node? then PrintNodeValue(slot, w) else Repeat(' ', w)
  }

  /** An exact field is `w` columns wide. */
  lemma CellLength(slot: Tree, w: nat)
    requires TreePrintable(slot, w) && CellExact(slot, w)
    ensures |Cell(slot, w)| == w
  {
    if slot.Node? {
      PrintNodeValueCentred(slot, w);
    }
  }

  /** Every slot's field followed by `separator` blanks. */
  function LevelCells(slots: seq<Tree>, w: nat, separator: nat): (s: string)
    requires SlotsPrintable(slots, w)
  {
    if slots == [] then []
    else Cell(slots[0], w) + Repeat(' ', separator) + LevelCells(slots[1..], w, separator)
  }

  /** A field holds only blanks and digits. */
  lemma CellLayout(slot: Tree, w: nat)
    requires TreePrintable(slot, w)
    ensures IsLayout(Cell(slot, w))
  {
    if slot.Node? {
      var digits := DecimalString(slot.wordCount);
      var pad := Repeat(' ', JavaHalf(w - |digits|));
      LayoutConcat(pad, digits);
      LayoutConcat(pad + digits, pad);
    }
  }

  /** A row of fields holds only blanks and digits. */
  lemma {:induction false} LevelCellsLayout(slots: seq<Tree>, w: nat, separator: nat)
    requires SlotsPrintable(slots, w)
    ensures IsLayout(LevelCells(slots, w, separator))
  {
    if slots != [] {
      CellLayout(slots[0], w);
      LevelCellsLayout(slots[1..], w, separator);
      LayoutConcat(Cell(slots[0], w), Repeat(' ', separator));
      LayoutConcat(Cell(slots[0], w) + Repeat(' ', separator), LevelCells(slots[1..], w, separator));
    }
  }

  /** With exact fields, each slot takes `w + separator` columns. */
  lemma {:induction false} LevelCellsLength(slots: seq<Tree>, w: nat, separator: nat)
    requires SlotsPrintable(slots, w) && SlotsExact(slots, w)
    ensures |LevelCells(slots, w, separator)| == |slots| * (w + separator)
  {
    if slots != [] {
      LevelCellsLength(slots[1..], w, separator);
      CellLength(slots[0], w);
      assert (|slots| - 1) * (w + separator) + (w + separator) == |slots| * (w + separator);
    }
  }

  /**
   * Columns spanned by one slot of level `level` in a tree of height
   * `height`: `w + 1` on the deepest level, doubling with each level up, so
   * `(w+1)·2^(height-level)`.
   */
  function SubtreeWidth(height: nat, level: nat, w: nat): (width: nat)
    requires level <= height
    ensures width >= w + 1
    decreases height - level
  {
    if level == height then w + 1 else 2 * SubtreeWidth(height, level + 1, w)
  }

  lemma {:induction false} SubtreeWidthIsPower(height: nat, level: nat, w: nat)
    requires level <= height
    ensures SubtreeWidth(height, level, w) == (w + 1) * Pow2(height - level)
    decreases height - level
  {
    if level < height {
      SubtreeWidthIsPower(height, level + 1, w);
      assert Pow2(height - level) == 2 * Pow2(height - (level + 1));
    }
  }

  /** The blanks before the first slot of an interior level: half a span less half a field. */
  function LeadingPad(height: nat, level: nat, w: nat): (pad: nat)
    requires 1 <= level < height
    ensures 2 * pad + w + 1 <= SubtreeWidth(height, level, w)
  {
    SubtreeWidth(height, level, w) / 2 - w / 2 - 1
  }

  /**
   * `printLevel` on an interior level (the only levels it is called for):
   * the leading pad, then every slot, the first included, followed by the
   * subtree width less `w` blanks. A slot therefore starts every
   * `SubtreeWidth` columns when every field is exact.
   */
  function PrintLevel(slots: seq<Tree>, level: nat, height: nat, w: nat): (s: string)
    requires 1 <= level < height
    requires SlotsPrintable(slots, w)
  {
    var width := SubtreeWidth(height, level, w);
    Repeat(' ', LeadingPad(height, level, w)) + LevelCells(slots, w, width - w)
  }

  /** An interior line opens with its leading pad of blanks. */
  lemma PrintLevelPad(slots: seq<Tree>, level: nat, height: nat, w: nat, i: nat)
    requires 1 <= level < height
    requires SlotsPrintable(slots, w)
    requires i < LeadingPad(height, level, w)
    ensures i < |PrintLevel(slots, level, height, w)| && PrintLevel(slots, level, height, w)[i] == ' '
  {
    var pad := Repeat(' ', LeadingPad(height, level, w));
    assert pad[i] == ' ';
  }

  /** With exact fields, an interior line is the leading pad and one subtree width per slot. */
  lemma PrintLevelLength(slots: seq<Tree>, level: nat, height: nat, w: nat)
    requires 1 <= level < height
    requires SlotsPrintable(slots, w) && SlotsExact(slots, w)
    ensures |PrintLevel(slots, level, height, w)|
      == LeadingPad(height, level, w) + |slots| * SubtreeWidth(height, level, w)
  {
    var width := SubtreeWidth(height, level, w);
    LevelCellsLength(slots, w, width - w);
  }

  /**
   * `printLastLevel`: `w + 1` blanks for `null`, otherwise the count and
   * one blank; no line break follows.
   */
  function PrintLastLevel(slots: seq<Tree>, w: nat): (s: string)
    requires SlotsPrintable(slots, w)
    ensures |s| >= |slots|
  {
    if slots == [] then []
    else
      var head := if slots[0] == Null then Repeat(' ', w + 1) else PrintNodeValue(slots[0], w) + " ";
      head + PrintLastLevel(slots[1..], w)
  }

  /** The deepest line holds only blanks and digits. */
  lemma {:induction false} PrintLastLevelLayout(slots: seq<Tree>, w: nat)
    requires SlotsPrintable(slots, w)
    ensures IsLayout(PrintLastLevel(slots, w))
  {
    if slots != [] {
      PrintLastLevelLayout(slots[1..], w);
      var head := if slots[0] == Null then Repeat(' ', w + 1) else PrintNodeValue(slots[0], w) + " ";
      if slots[0].Node? {
        CellLayout(slots[0], w);
        LayoutConcat(PrintNodeValue(slots[0], w), " ");
      }
      LayoutConcat(head, PrintLastLevel(slots[1..], w));
    }
  }

  /** With exact fields, each slot of the deepest line takes `w + 1` columns. */
  lemma {:induction false} LastLevelLength(slots: seq<Tree>, w: nat)
    requires SlotsPrintable(slots, w) && SlotsExact(slots, w)
    ensures |PrintLastLevel(slots, w)| == |slots| * (w + 1)
  {
    if slots != [] {
      LastLevelLength(slots[1..], w);
      assert (|slots| - 1) * (w + 1) + (w + 1) == |slots| * (w + 1);
    }
  }

  /** Slot `j` of the next level: a child of slot `j / 2`, the left one when `j` is even. */
  function ChildSlot(parent: Tree, j: nat): Tree {
    if parent == Null then Null else if j % 2 == 0 then parent.left else parent.right
  }

  /**
   * `getNextLevel`: for each slot, its two children, or two `null`s when the
   * slot is `null`.
   */
  function NextLevel(slots: seq<Tree>): (next: seq<Tree>)
    ensures |next| == 2 * |slots|
  {
    if slots == [] then []
    else
      var children := if slots[0] != Null then [slots[0].left, slots[0].right] else [Null, Null];
      children + NextLevel(slots[1..])
  }

  /** Slot `j` of the next level is a child of slot `j / 2`, the left one when `j` is even. */
  lemma {:induction false} NextLevelSlots(slots: seq<Tree>)
    ensures forall j :: 0 <= j < |NextLevel(slots)| ==> NextLevel(slots)[j] == ChildSlot(slots[j / 2], j)
  {
    if slots != [] {
      NextLevelSlots(slots[1..]);
      var next := NextLevel(slots);
      var rest := NextLevel(slots[1..]);
      forall j | 2 <= j < |next|
        ensures next[j] == ChildSlot(slots[j / 2], j)
      {
        assert next[j] == rest[j - 2];
        assert (j - 2) / 2 == j / 2 - 1;
      }
    }
  }

  /**
   * `getNextLevel` doubles the slots: slots 2i and 2i+1 hold the children
   * of slot i, or are both `null` when slot i is.
   */
  lemma NextLevelPairs(slots: seq<Tree>)
    ensures |NextLevel(slots)| == 2 * |slots|
    ensures forall i :: 0 <= i < |slots| ==>
      && NextLevel(slots)[2 * i] == (if slots[i].Node? then slots[i].left else Null)
      && NextLevel(slots)[2 * i + 1] == (if slots[i].Node? then slots[i].right else Null)
  {
    NextLevelSlots(slots);
    var next := NextLevel(slots);
    forall i | 0 <= i < |slots|
      ensures next[2 * i] == (if slots[i].Node? then slots[i].left else Null)
      ensures next[2 * i + 1] == (if slots[i].Node? then slots[i].right else Null)
    {
      assert (2 * i) / 2 == i && (2 * i + 1) / 2 == i;
      assert ChildSlot(slots[i], 2 * i) == next[2 * i];
      assert ChildSlot(slots[i], 2 * i + 1) == next[2 * i + 1];
    }
  }

  /** `isLevelEmpty`: every slot is `null`. */
  function IsLevelEmpty(slots: seq<Tree>): bool {
    if slots == [] then true else slots[0] == Null && IsLevelEmpty(slots[1..])
  }

  /** A level is empty exactly when every one of its slots is `null`. */
  lemma {:induction false} LevelEmptyAllNull(slots: seq<Tree>)
    ensures IsLevelEmpty(slots) <==> forall i :: 0 <= i < |slots| ==> slots[i] == Null
  {
    if slots != [] {
      LevelEmptyAllNull(slots[1..]);
      assert forall i :: 1 <= i < |slots| ==> slots[1..][i - 1] == slots[i];
    }
  }

  lemma {:induction false} NextLevelPrintable(slots: seq<Tree>, w: nat)
    requires SlotsPrintable(slots, w)
    ensures SlotsPrintable(NextLevel(slots), w)
  {
    if slots != [] {
      NextLevelPrintable(slots[1..], w);
      var next := NextLevel(slots);
      assert next[1..][1..] == NextLevel(slots[1..]);
    }
  }

  /**
   * `printNodes`: an interior level is printed with its line break, and
   * the next level follows unless it is empty; the deepest level is
   * printed by `printLastLevel`.
   */
  function PrintNodes(slots: seq<Tree>, level: nat, height: nat, w: nat): (s: string)
    requires 1 <= level
    requires SlotsPrintable(slots, w)
    decreases height - level
  {
    var next := NextLevel(slots);
    if level < height then
      NextLevelPrintable(slots, w);
      PrintLevel(slots, level, height, w) + "\n"
        + (if !IsLevelEmpty(next) then PrintNodes(next, level + 1, height, w) else "")
    else
      PrintLastLevel(slots, w)
  }

  /** `print`: the width made odd, the height measured, and the levels printed from the root's. */
  function Print(root: Tree, maxNodeWidth: nat): (s: string)
    requires TreePrintable(root, NormalizeWidth(maxNodeWidth))
  {
    PrintNodes([root], 1, Height(root), NormalizeWidth(maxNodeWidth))
  }
}

=== FILE: wrappers.dfy ===
/** The optional value used for Java's `null` labels and JavaScript's `undefined` neighbours. */
module Wrappers {

  datatype Option<+T> = None | Some(value: T)
}
